=== FILE: README.md ===
# Ticket booking: seat and ticket lifecycle in Dafny

This project models the rules underneath a concert ticket-booking web application. A seat is
`available`, `reserved` (with an expiry), `sold` or `used`. Buyers pick seats on the seats page,
which fills a client-side cart with local ten-minute holds, and check out through the order
endpoint. At the door, staff scan each ticket's QR code, and the scanner marks the seat `used`.

Every store write, handler and UI reaction is a pure function over immutable values:

- The seat table is `map<SeatId, Seat>`.
- Time is an integer number of milliseconds passed in as `now`.
- Store and network failures are boolean fault parameters, never preconditions. The one exception is the zone lookup of the one-zone seat script: there a store error and a missing zone end the run the same way, so both become `ZoneMissing`.

Modules, one per part of the program:

- `Common`: seats, zones, statuses, the ten-minute hold.
- `SeqUtil`: order-preserving filter, sums, substrings.
- `SeatStore`: the database service's reserve, release, order and sweep writes.
- `ReserveRoute`: the POST/DELETE hold endpoint.
- `Checkout`: the order endpoint.
  - Schema validation.
  - The 404/409/500 seat checks.
  - Server-side prices.
  - Three sequential, non-atomic writes.
- `Cart`: the client cart store.
- `ReservationTimer`: the countdown banner.
- `SeatSelection`: the selector's click toggle, the seats page handler, and the row/seat grid.
- `SeatLayout`: the seat map's row letters, per-letter row counts, colours and click guard.
- `DoorScanner`: the scanner page's state machine and the used/completed bookkeeping.
- `AdminGate`: the admin redirect middleware.
- `AdminOrders`: the admin order search, status filter and badges.
- `VenueSeed`: the venue setup script's seat generation and batching.
- `ZoneSeed`: the one-zone seat script.

Some JavaScript semantics are modelled explicitly:

- `String.fromCharCode` reduces its argument modulo 2^16.
- `charCodeAt(0)` of an empty string is NaN, which becomes a null row number.
- `Math.min()` of nothing is Infinity.
- `Array.find` returns the first match.
- `Array.prototype.sort` is stable.
- The keys of an object with integer keys come back in ascending order.

## Model

| member | source | states |
|---|---|---|
| SeatStore.MarkReserved | lib/database.ts:99-106 | exactly the listed `available` seats change; they become `reserved` until the given instant; the key set is kept |
| SeatStore.MarkReleased | lib/database.ts:122-129 | exactly the listed `reserved` seats change; they become `available` with no expiry |
| SeatStore.MarkSoldCleared | lib/database.ts:184-192 | every listed seat becomes `sold` with no expiry, whatever its status; unlisted seats are unchanged |
| SeatStore.SweepExpired | lib/database.ts:206-215 | exactly the `reserved` seats whose expiry is before `now` change, and they become `available` with no expiry |
| SeatStore.ReserveSeats | lib/database.ts:95-118 | reports success exactly when the store raises no error, even if no row changed; the default hold is 10 minutes |
| SeatStore.ReleaseSeats | lib/database.ts:120-141 | reports success exactly when the store raises no error; a failure leaves the table as it was |
| SeatStore.CreateOrder | lib/database.ts:143-204 | success iff both inserts succeed; a failed seat update still reports success; seats change only on success with a working update, and then exactly the listed seats become sold with no expiry while every other seat is unchanged |
| SeatStore.CleanupExpiredReservations | lib/database.ts:206-223 | a failing sweep leaves the table as it was; otherwise the expired holds are released |
| SeatStore.ReserveDoesNotExtend | lib/database.ts:105-106 | reserving the same seats again does not move their expiry |
| SeatStore.ReleaseIdempotent | lib/database.ts:128-129 | a second release of the same ids changes nothing |
| SeatStore.ReleaseUndoesReserve | lib/database.ts:95-141 | on a consistent table with none of the seats held, release after reserve gives back the table |
| SeatStore.SweepIdempotent | lib/database.ts:206-215 | a second sweep at the same instant changes nothing |
| SeatStore.HoldSurvivesEarlySweep | lib/database.ts:214-215 | a hold placed until `until` survives any sweep at or before `until` |
| SeatStore.HoldEndsAtExpiry | lib/database.ts:95-215 | a hold of m minutes placed at `now` is kept by every sweep up to now + m·60000 ms and released by every sweep after it |
| SeatStore.SettledSeatsStay | lib/database.ts:99-129 | reserve, release and the sweep never change a sold or used seat |
| SeatStore.CreateOrderResellsUsedSeat | lib/database.ts:186-192 | order creation has no status guard: a used seat becomes sold again |
| SeatStore.SoldSeatsStaySold | lib/database.ts:99-215 | the seats a successful order sells are sold, and no later reserve, release or sweep changes them |
| SeatStore.RepeatOrderChangesNothing | lib/database.ts:184-192 | a second order for the same seats still reports success and changes no seat |
| SeatStore.WritesKeepHoldsConsistent | lib/database.ts:99-215 | every write keeps "reserved has an expiry, available has none" |
| ReserveRoute.Post | app/api/seats/reserve/route.ts:4-38 | 400 iff `seatIds` is falsy or not an array; 200 iff ids were given and the store did not fail; on failure the table is unchanged; on success the echoed expiry is now + 600000 |
| ReserveRoute.Delete | app/api/seats/reserve/route.ts:40-70 | 400 iff `seatIds` is falsy or not an array; success releases exactly the listed reserved seats; failure changes nothing |
| ReserveRoute.PostEchoesWrittenExpiry | app/api/seats/reserve/route.ts:13-33 | every seat the POST changed carries the `reserved_until` value the answer reports |
| ReserveRoute.PostSucceedsWithoutChange | app/api/seats/reserve/route.ts:16-33 | when no listed seat is available, POST still answers success and changes nothing |
| ReserveRoute.DeleteTwiceIsNoOp | app/api/seats/reserve/route.ts:51-58 | a second DELETE with the same ids leaves the table as the first one left it |
| ReserveRoute.DeleteUndoesPost | app/api/seats/reserve/route.ts:4-70 | DELETE after POST restores a consistent table where none of the seats was held |
| SeatStore.SeatIds | app/api/orders/route.ts:37 | the requested seat ids, position by position |
| Checkout.CheckSeats | app/api/orders/route.ts:54-63 | a conflict names a listed seat that is not available; a missing price names a listed unpriced seat; a total is reached iff every seat is available and priced, and is the sum of the zone prices |
| Checkout.ServerPrices | app/api/orders/route.ts:61-62 | each listed seat's price is its zone's price |
| Checkout.ItemRows | app/api/orders/route.ts:89-93 | one item row per requested seat, priced from the seat's zone, not from the request |
| Checkout.MarkSold | app/api/orders/route.ts:106-109 | every listed seat becomes sold, the expiry column untouched; other seats are unchanged |
| Checkout.PlaceOrder | app/api/orders/route.ts:19-237 | an invalid request gets 400 and no store change; 404/409 change nothing; a 200 means every requested seat existed, was available and had a zone price; a seat is written only on 200; 200 carries an order id; the ticket e-mail goes to the buyer iff the answer is 200 and delivery works |
| Checkout.Post | app/api/orders/route.ts:26-236 | a body that is not JSON gets 500, an ill-typed one 400, both with no store change; a parsed request is handled as above; 200 only for a valid request |
| Checkout.NameLengthInCodeUnits | app/api/orders/route.ts:10 | the name's minimum length counts UTF-16 code units: one character outside the basic plane counts two |
| Checkout.Commit | app/api/orders/route.ts:65-115 | each write happens only after the previous one succeeded; 200 iff all three succeed; on failure no seat is sold and no order id is returned |
| Checkout.AllFound | app/api/orders/route.ts:47-49 | when as many rows come back as ids were sent, every id exists and no id repeats |
| Checkout.FoundWithoutSmaller | app/api/orders/route.ts:38-49 | a missing or repeated id makes the found rows fewer than the ids |
| Checkout.DuplicateSeatIsNotFound | app/api/orders/route.ts:47-49 | requesting one seat twice, at any two positions, is answered 404 with no store change |
| Checkout.MissingSeatIsNotFound | app/api/orders/route.ts:38-49 | a requested id with no seat row is answered 404 with no store change |
| Checkout.TakenSeatIsRejected | app/api/orders/route.ts:54-57 | a reserved, sold or used seat is answered 409 with no store change when every requested seat is found and priced |
| Checkout.ReservedSeatIsRejected | app/api/orders/route.ts:54-57 | a reserved seat, even one held by the buyer, is answered 409 with no store change |
| Checkout.ClientPricesIgnored | app/api/orders/route.ts:51-93 | two requests differing only in client prices are answered and stored alike |
| Checkout.SuccessChargesZonePrices | app/api/orders/route.ts:51-115 | on success the order is `completed`, its total is the sum of zone prices, and every requested seat is sold |
| Checkout.DeliveryFailureIgnored | app/api/orders/route.ts:117-231 | a PDF or e-mail failure changes neither the answer nor the store; only the ticket e-mail is missing |
| Checkout.ItemsFailureLeavesOrder | app/api/orders/route.ts:95-103 | when the item insert fails, the order row stays, no seat is sold, and the answer is 500 |
| Cart.IdsOf | lib/cart-store.ts:27 | the items' seat ids in cart order |
| Cart.AddItem | lib/cart-store.ts:25-40 | a seat already in the cart leaves the state unchanged; a new seat is appended and held until now + 600000; other holds are kept; seat ids stay unique |
| Cart.RemoveItem | lib/cart-store.ts:41-51 | the seat is no longer in the cart; the other items are kept in order; only that key leaves the hold map |
| Cart.RemoveDropsOneItem | lib/cart-store.ts:41-51 | in a cart without repeated seats, removal drops exactly the item at that seat's position |
| Cart.ClearCart | lib/cart-store.ts:52 | the items are emptied and the hold map is kept exactly |
| Cart.ClearedHoldsDropAtNextCheck | lib/cart-store.ts:52-86 | the holds a clear keeps are all dropped by the next expiry check, which leaves the empty cart |
| Cart.ReserveSeat | lib/cart-store.ts:57-64 | only the hold map changes: that seat is held until now + 600000 |
| Cart.UnreserveSeat | lib/cart-store.ts:65-71 | only the hold map changes: that seat's key is removed |
| Cart.CheckExpiry | lib/cart-store.ts:72-86 | keeps, in order, exactly the items with a recorded expiry after `now`; the hold map is rebuilt from the survivors |
| Cart.TotalPrice | lib/cart-store.ts:53-55 | the total is the sum of the item prices, in cart order |
| Cart.TotalPriceSplit | lib/cart-store.ts:53-55 | the total price adds up over any split of the item list |
| Cart.AddItemTotal | lib/cart-store.ts:25-56 | adding a new seat raises the total by its price and the count by one; a repeat changes neither |
| Cart.RemoveUndoesAdd | lib/cart-store.ts:25-51 | removing a seat just added gives back the items, and the hold map loses that key |
| Cart.CheckExpiryIdempotent | lib/cart-store.ts:72-86 | a second expiry check at the same instant changes nothing |
| Cart.CheckExpiryLeavesOnlyLive | lib/cart-store.ts:76-83 | after pruning, every item has a recorded expiry later than `now` |
| Cart.HoldEditsKeepTotals | lib/cart-store.ts:57-71 | editing holds never changes the total price or the item count |
| ReservationTimer.Remaining | components/reservation-timer.tsx:16-23 | zero for an empty cart; otherwise max(0, earliest recorded expiry − now), never negative; infinite when nothing is recorded |
| ReservationTimer.Show | components/reservation-timer.tsx:29-33 | hidden iff the cart is empty or the time left is 0; the minutes and seconds bracket the time left to the second; urgent iff under 120000 ms |
| ReservationTimer.OnTick | components/reservation-timer.tsx:13-24 | each tick prunes the cart but computes the time left from the cart before pruning |
| ReservationTimer.StaleTickHidesBanner | components/reservation-timer.tsx:13-24 | when a hold has already ended but the pruned cart still has items, the tick reads zero time left and the banner is hidden for that tick |
| ReservationTimer.UrgencyBoundary | components/reservation-timer.tsx:33 | 119999 ms is urgent and 120000 ms is not |
| ReservationTimer.PrunedCartShowsTime | components/reservation-timer.tsx:14-19 | a cart pruned at `now` that is not empty shows a positive time left |
| ReservationTimer.LastSecondIsUrgent | components/reservation-timer.tsx:17-33 | one second before the earliest expiry the banner shows 0:01 and urgent |
| SeatSelection.SelectedIds | components/seat-selector.tsx:18-22 | the highlighted set is exactly the cart's seat ids |
| SeatSelection.ClickSeat | components/seat-selector.tsx:24-38 | a non-available seat changes nothing; otherwise membership flips; an add appends the seat at the zone's price |
| SeatSelection.ButtonColorOf | components/seat-selector.tsx:40-53 | blue iff selected; else green, yellow, red, gray for available, reserved, sold, used |
| SeatSelection.FindZone | app/seats/page.tsx:79 | none iff no loaded zone has the id; otherwise the first zone with that id |
| SeatSelection.SelectSeat | app/seats/page.tsx:76-93 | a non-available seat or an unknown zone changes nothing; otherwise the seat is toggled with the found zone's price |
| SeatSelection.ZoneSeats | app/seats/page.tsx:31-34 | exactly the loaded seats of that zone, in load order |
| SeatSelection.RowNumbers | components/seat-selector.tsx:60-73 | strictly ascending, and exactly the row numbers of the seats |
| SeatSelection.InsertBySeat | components/seat-selector.tsx:89-90 | inserting into a sorted row keeps it sorted and adds exactly that seat |
| SeatSelection.SortBySeat | components/seat-selector.tsx:89-90 | the row comes out sorted by seat number and is a permutation of its input |
| SeatSelection.Groups | components/seat-selector.tsx:60-90 | one line per listed row, holding the sorted seats of that row |
| SeatSelection.Grid | components/seat-selector.tsx:60-90 | rows ascend; each line is sorted; a line holds exactly the seats of its row; every seat lands in a line |
| SeatSelection.TwoClicksRestore | components/seat-selector.tsx:27-37 | two clicks on an available seat not in the cart give back the item list |
| SeatSelection.SelectAgreesWithClick | app/seats/page.tsx:76-93 | with the zone it finds, the seats page handler acts as the selector's click |
| SeatSelection.ZoneSeatsIdempotent | app/seats/page.tsx:32 | filtering a zone's seats again by that zone changes nothing |
| SeatSelection.SortIsStable | components/seat-selector.tsx:89-90 | seats with the same seat number keep their load order |
| SeatSelection.GridShowsEverySeatOnce | components/seat-selector.tsx:60-90 | the grid shows as many buttons as there are seats |
| SeatLayout.RowLetter | components/seat-layout.tsx:40 | rows 1..26 map to 'A'..'Z'; in general the code unit is 64 + row modulo 2^16 |
| SeatLayout.RowNumberOf | scripts/setup-zone-201-seats.js:187 | none (NaN) iff the name is empty; otherwise the first code unit minus 64 |
| SeatLayout.RowLetterRoundTrip | components/seat-layout.tsx:178 | for rows −64..65471, the letter of a row reads back as that row |
| SeatLayout.RowNumberRoundTrip | scripts/setup-zone-201-seats.js:187 | the row number read from a name prints back as the name's first letter |
| SeatLayout.LettersOfTheVenue | scripts/setup-zone-201-seats.js:187 | 'A' is row 1, 'K' is row 11, and rows 1 and 26 print as 'A' and 'Z' |
| SeatLayout.Bump | components/seat-layout.tsx:41-45 | a letter already present keeps the record's length; a new letter is appended with count 1; letters keep their positions |
| SeatLayout.TallyFacts | components/seat-layout.tsx:39-47 | each letter appears once; counts sum to the seat count; each letter counts the seats bearing it; the letters are those of the seats |
| SeatLayout.TallyCountsSeats | components/seat-layout.tsx:39-47 | each entry counts exactly the seats whose row carries its letter |
| SeatLayout.ColorOf | components/seat-layout.tsx:17-22 | selected first, then sold, then reserved; everything else, used included, is drawn as available |
| SeatLayout.ViewsAgreeSaveUsed | components/seat-layout.tsx:17-22 | map and list colours correspond, except an unselected used seat: gray in the list, available on the map |
| SeatLayout.MapClick | components/seat-layout.tsx:147-149 | a click on a seat that is not available changes nothing |
| SeatLayout.MapGuardMatchesHandler | components/seat-layout.tsx:147-149 | the map's guard adds nothing to the handler's own guard |
| SeatLayout.SelectedColorMeansInCart | app/seats/page.tsx:95 | a seat drawn as selected is exactly a seat in the cart |
| DoorScanner.Classify | app/admin/scanner/page.tsx:283-318 | sold is valid, used is already used, anything else is invalid |
| DoorScanner.LookUp | app/admin/scanner/page.tsx:239-272 | found iff the query succeeds, exactly one item row matches, and its order, its seat and the seat's zone exist; the ticket carries the seat's current status |
| DoorScanner.Resolve | app/admin/scanner/page.tsx:236-255 | an unparsable payload finds nothing; otherwise the lookup decides |
| DoorScanner.OnScan | app/admin/scanner/page.tsx:200-345 | ignored when manual and not scanning, in cooldown, or a repeat of the last code; otherwise sets cooldown and the last code; the verdict comes from the seat status, or is invalid when nothing is found |
| DoorScanner.ReleaseCooldown | app/admin/scanner/page.tsx:336-341 | clears the cooldown and nothing else |
| DoorScanner.StartScanning | app/admin/scanner/page.tsx:138-176 | a no-op while scanning; in manual mode it clears the cooldown and the last code; a camera failure leaves it stopped |
| DoorScanner.CloseModal | app/admin/scanner/page.tsx:115-125 | closes the modal and clears the ticket and verdict |
| DoorScanner.AutoTimersKeepLastCodeBlocked | app/admin/scanner/page.tsx:115-341 | in automatic mode, after an accepted scan, the cooldown release and the modal close resume scanning, but the same code stays refused while any other code is accepted |
| DoorScanner.ChangeMode | app/admin/scanner/page.tsx:427-479 | sets the mode and clears scanning, cooldown, last code, ticket, verdict, modal and loading |
| DoorScanner.ResetState | app/admin/scanner/page.tsx:481-488 | clears ticket, verdict, last code, cooldown and loading; leaves mode, camera and modal |
| DoorScanner.SetUsed | app/admin/scanner/page.tsx:364-367 | only that seat's status becomes used |
| DoorScanner.StatusAfterUse | app/admin/scanner/page.tsx:374-386 | `completed` iff every item seat of the order is used, otherwise `partially_used` |
| DoorScanner.RecomputeOrder | app/admin/scanner/page.tsx:374-388 | only rows of that order change, and only their status |
| DoorScanner.MarkAsUsed | app/admin/scanner/page.tsx:347-424 | no ticket or an empty seat id changes nothing at all; a failed seat update changes nothing in the store and only stops the spinner; otherwise the seat is used and the order recomputed; manual mode clears the scan state |
| DoorScanner.RepeatScanIgnored | app/admin/scanner/page.tsx:216-219 | scanning the same code again is ignored |
| DoorScanner.ManualSwitchIsInitial | app/admin/scanner/page.tsx:441-447 | switching to manual mode yields the page's initial state |
| DoorScanner.ResetAllowsRescan | app/admin/scanner/page.tsx:481-488 | after a reset with the camera on, the same code is accepted again |
| DoorScanner.ManualRestartAcceptsNextScan | app/admin/scanner/page.tsx:402-415 | in manual mode, marking used and restarting lets the next code through |
| DoorScanner.LookUpSurvivesUse | app/admin/scanner/page.tsx:364-386 | marking a ticket used keeps it findable |
| DoorScanner.TicketAdmitsOnce | app/admin/scanner/page.tsx:283-300 | after a valid ticket is marked used, scanning it again shows already used |
| DoorScanner.ZonelessSeatIsInvalid | app/admin/scanner/page.tsx:239-329 | a ticket whose seat has no zone row is shown as invalid, in either mode |
| DoorScanner.LastTicketCompletesOrder | app/admin/scanner/page.tsx:374-386 | using the only ticket of an order completes it |
| DoorScanner.FirstOfTwoIsPartial | app/admin/scanner/page.tsx:374-386 | using one of two sold tickets leaves the order partially used |
| AdminGate.Gate | middleware.ts:26-35 | redirect to login iff not admin under `/admin` but not `/admin/login`; redirect to the scanner iff admin on `/admin/login`; pass through otherwise |
| AdminGate.NoRedirectLoop | middleware.ts:26-35 | with the same session, a redirect's target passes through |
| AdminGate.PublicPathsPass | middleware.ts:26-35 | paths outside `/admin` always pass through |
| AdminGate.LoginIsUnderAdmin | middleware.ts:26 | a path under `/admin/login` is under `/admin` |
| AdminOrders.LowerChar | app/admin/orders/page.tsx:149-150 | Latin and Russian capitals (Ё included) are lowered, every other character is kept, and no capital remains |
| AdminOrders.Lower | app/admin/orders/page.tsx:149-150 | character-wise lowering, same length |
| AdminOrders.FilterOrders | app/admin/orders/page.tsx:147-157 | a subsequence of the loaded orders holding exactly those matching the search and the status filter |
| AdminOrders.OrderBadgeOf | app/admin/orders/page.tsx:123-134 | active, completed and partially used each get their badge; anything else is unknown |
| AdminOrders.SeatBadgeOf | app/admin/orders/page.tsx:136-145 | sold and used each get their badge; anything else is unknown |
| AdminOrders.PlacedOrderHasKnownBadges | app/admin/orders/page.tsx:123-145 | an order stored by a successful checkout shows the completed badge and each of its seats the sold badge |
| AdminOrders.UsedTicketHasKnownBadges | app/admin/orders/page.tsx:123-145 | after a ticket is used at the door, its seat shows the used badge and its order completed or partially used |
| AdminOrders.EmptySearchListsAll | app/admin/orders/page.tsx:147-157 | an empty search with filter "all" lists every order, in order |
| AdminOrders.StatusNarrowsAll | app/admin/orders/page.tsx:154 | a status filter narrows the "all" list to exactly the orders with that status |
| AdminOrders.LowerIdempotent | app/admin/orders/page.tsx:149-150 | lowering twice is lowering once |
| AdminOrders.SearchIgnoresTermCase | app/admin/orders/page.tsx:148-150 | name and e-mail matching ignores the case of the term |
| AdminOrders.RussianNameFoundInLowerCase | app/admin/orders/page.tsx:148-150 | a name written with a Russian capital is found by its lower-case spelling |
| VenueSeed.ZoneRowsAreFull | scripts/setup-venue-data.js:113-143 | every zone size is a whole number of rows of ten, so no zone has a short last row |
| VenueSeed.VenueHasEightHundredSeventySeats | scripts/setup-venue-data.js:57-124 | the script's 28 zones get 870 seats: 280 VIP, 390 balcony, 200 general access |
| VenueSeed.RowCount | scripts/setup-venue-data.js:142 | the ceiling of total/10 |
| VenueSeed.GenerateZone | scripts/setup-venue-data.js:142-153 | exactly `total` seats; seat i is row i/10+1, seat i%10+1, available, in the zone; rows within 1..ceil(total/10) and seats within 1..10 |
| VenueSeed.SeatPositionsDistinct | scripts/setup-venue-data.js:142-153 | two positions never share a (row, seat) pair |
| VenueSeed.RowsAreFullButTheLast | scripts/setup-venue-data.js:143 | every row before the last holds ten seats |
| VenueSeed.GenerateVenue | scripts/setup-venue-data.js:108-154 | the list is each inserted zone's seats in turn, row by row and seat by seat; its length is the sum of the zone totals; every seat is available and belongs to an inserted zone |
| VenueSeed.VenueSeatsOfZone | scripts/setup-venue-data.js:108-154 | with distinct zone ids, one zone's seats picked out of the venue list are exactly that zone's seats in order |
| VenueSeed.Batches | scripts/setup-venue-data.js:157-159 | nonempty batches of at most 100, all full but the last, ceil(n/100) of them |
| VenueSeed.BatchesCoverAll | scripts/setup-venue-data.js:157-159 | the batches, concatenated, are the full seat list |
| VenueSeed.Inserted | scripts/setup-venue-data.js:158-167 | the store keeps a prefix of the flattened batches: all of them when no insert fails, none when the first fails |
| VenueSeed.InsertedIsPrefix | scripts/setup-venue-data.js:158-167 | what the store keeps is a prefix of the list: the first k·100 seats (or all) when batch k fails |
| VenueSeed.BatchPrefixLength | scripts/setup-venue-data.js:169 | the first k batches hold min(100k, n) seats |
| ZoneSeed.LookUpZone | scripts/setup-zone-201-seats.js:159-168 | a zone id iff exactly one zone has the name, and it is that zone's id |
| ZoneSeed.Prepare | scripts/setup-zone-201-seats.js:185-192 | the target zone, status available, the entry's seat number, and the row number read from the row name |
| ZoneSeed.PreparedRowsOfTheVenue | scripts/setup-zone-201-seats.js:187 | row "A" becomes row 1 and "K" row 11; an empty row name gives no row number |
| ZoneSeed.PrepareAll | scripts/setup-zone-201-seats.js:185-192 | one prepared row per entry, in order |
| ZoneSeed.Populate | scripts/setup-zone-201-seats.js:144-226 | empty data makes no store call; a missing zone stops after the lookup, a failed delete after two calls, a failed insert after three, and a run that reaches the count makes four; the table changes only after a successful delete |
| ZoneSeed.ZoneHoldsPrepared | scripts/setup-zone-201-seats.js:174-199 | after delete and insert the zone's seats are exactly the prepared rows |
| ZoneSeed.SuccessfulRunPasses | scripts/setup-zone-201-seats.js:204-221 | with no store failure the count read back equals the expected count, which is the number of entries |
| ZoneSeed.OtherZonesUntouched | scripts/setup-zone-201-seats.js:174-199 | other zones' seats survive every run, whatever fails |
| ZoneSeed.RerunIsIdempotent | scripts/setup-zone-201-seats.js:172-199 | a second successful run leaves the table as the first one left it |

## Left out

- Hosted-database I/O and concurrency: each guarded UPDATE is one atomic function on the table, and no interleavings are modelled.
- Time is an integer; ISO timestamps are compared as the instants they denote.
- E-mail syntax (zod `.email()`) is a predicate parameter. UUID syntax is modelled as 8-4-4-4-12 hex digits, without the version and variant nibbles zod also checks.
- Prices are integers; fractional prices and `typeof price === 'number'` checks on non-numbers are not modelled.
- The order endpoint: only the choice between 409 and 500 depends on the order of the rows the store returns, and the model walks them in request order.
- PDF rendering, QR images, the e-mail's contents and `pdf_url`: a foreign library and the network. Only whether the ticket e-mail goes out is modelled; its failure is caught and ignored by the endpoint.
- Cart persistence to local storage (zustand `persist`) is not modelled.
- React timers are separate transitions (`ReleaseCooldown`, `CloseModal`), not scheduled automatically. The one-second delay before automatic mark-as-used is one of them.
- Stale React closures are not modelled: handlers read the current state.
- Speech, toasts and camera internals are out; a camera start failure is a parameter.
- The middleware's matcher configuration (`/admin/:path*`) is not modelled; the gate's decision is stated for every path.
- Object key ordering for row labels: the record is modelled as the letters in order of first occurrence. JavaScript would list integer-like keys first, which only letters for digits could produce.
- AdminOrders.LowerChar, AdminOrders.Lower, AdminOrders.FilterOrders: lower-casing covers the Latin and Russian capitals only; the case mapping of other scripts (accented Latin, Greek, other Cyrillic letters) is not modelled.
- Coordinates, viewBox, zoom and pan, and label y positions: floating point geometry.
- The zone's name and colour in the scanner's ticket view: presentation only. Whether the zone row exists is modelled.
- Checkout.Post: an ill-typed body is one case, without the individual zod messages; the e-mail and UUID checks are as stated above.
- The seat map component is not mounted by the seats page in the files modelled here; its click callback is modelled with the seats page handler.
- A NaN row number is sent to the store as null, modelled as `None`.
- Admin login and logout, payment routes, ticket and event presentation components: outside the modelled core.
- DoorScanner.LookUp: `.single()` also fails on a store error; both are folded into the `fails` parameter.
- ZoneSeed.Populate: a failed delete is assumed to leave the table unchanged; a failed insert is assumed to insert nothing.
- Batches after a failing one are never sent; the model's `Inserted` takes the index of the first failing batch.

=== FILE: admin_gate.dfy ===
/** The request filter in front of the admin pages: visitors without an admin
    session are sent to the login page, admins are sent away from it. */
module AdminGate {
  import opened SeqUtil

  datatype Decision = PassThrough | RedirectTo(path: string)

  const AdminPrefix: string := "/admin"
  const LoginPath: string := "/admin/login"
  const ScannerPath: string := "/admin/scanner"

  function Gate(isAdmin: bool, path: string): (d: Decision)
    ensures d == RedirectTo(LoginPath) <==>
              !isAdmin && StartsWith(path, "/admin") && !StartsWith(path, "/admin/login")
    ensures d == RedirectTo(ScannerPath) <==> isAdmin && StartsWith(path, "/admin/login")
    ensures d.PassThrough? <==> !StartsWith(path, "/admin") ||
                                (isAdmin && !StartsWith(path, "/admin/login")) ||
                                (!isAdmin && StartsWith(path, "/admin/login"))
  {
    if !isAdmin && StartsWith(path, AdminPrefix) && !StartsWith(path, LoginPath) then RedirectTo(LoginPath)
    else if isAdmin && StartsWith(path, LoginPath) then RedirectTo(ScannerPath)
    else PassThrough
  }

  /** The login path lies under the admin prefix. */
  lemma LoginIsUnderAdmin(path: string)
    requires StartsWith(path, "/admin/login")
    ensures StartsWith(path, "/admin")
  {
    assert path[..6] == path[..12][..6];
  }

  /** No redirect loop: with the same session, the target of a redirect is let through. */
  lemma NoRedirectLoop(isAdmin: bool, path: string)
    requires Gate(isAdmin, path).RedirectTo?
    ensures Gate(isAdmin, Gate(isAdmin, path).path) == PassThrough
  {
    var target := Gate(isAdmin, path).path;
    if isAdmin {
      assert target == "/admin/scanner";
      assert target[..12][7] == 's' && "/admin/login"[7] == 'l';
    } else {
      assert target == "/admin/login";
      assert StartsWith(target, "/admin/login");
    }
  }

  /** Paths outside the admin area are never redirected, whatever the session. */
  lemma PublicPathsPass(isAdmin: bool, path: string)
    requires !StartsWith(path, "/admin")
    ensures Gate(isAdmin, path) == PassThrough
  {
    if StartsWith(path, "/admin/login") {
      LoginIsUnderAdmin(path);
    }
  }
}

=== FILE: admin_orders.dfy ===
/** The admin order list: the search box and status filter over the loaded
    orders, and the badges shown for order and seat statuses. */
module AdminOrders {
  import opened Common
  import SeqUtil
  import Checkout
  import DoorScanner

  /** An order as the admin page loads it; phone and status are nullable. */
  datatype OrderView = OrderView(id: string, name: string, email: string, phone: Option<string>, status: Option<string>)

  /** The capitals `toLowerCase` maps in the two scripts the app's data is written
      in: Latin A-Z and Russian А-Я together with Ё. */
  predicate IsCapital(c: char)
  {
    'A' <= c <= 'Z' || '\U{0410}' <= c <= '\U{042F}' || c == '\U{0401}'
  }

  /** Lower-casing of one character: Latin and Russian capitals move to their small
      letters, Ё to ё; every other character is kept. */
  function LowerChar(c: char): (l: char)
    ensures 'A' <= c <= 'Z' ==> l as int == c as int + 32
    ensures '\U{0410}' <= c <= '\U{042F}' ==> l as int == c as int + 32
    ensures c == '\U{0401}' ==> l == '\U{0451}'
    ensures !IsCapital(c) ==> l == c
    ensures !IsCapital(l)
  {
    if 'A' <= c <= 'Z' || '\U{0410}' <= c <= '\U{042F}' then (c as int + 32) as char
    else if c == '\U{0401}' then '\U{0451}'
    else c
  }

  function Lower(s: string): (r: string)
    ensures |r| == |s|
    ensures forall i :: 0 <= i < |s| ==> r[i] == LowerChar(s[i])
  {
    seq(|s|, i requires 0 <= i < |s| => LowerChar(s[i]))
  }

  /** Name and e-mail match ignoring case, phone and id match as written, a missing phone never matches. */
  predicate MatchesSearch(o: OrderView, term: string)
  {
    || SeqUtil.Contains(Lower(o.name), Lower(term))
    || SeqUtil.Contains(Lower(o.email), Lower(term))
    || (o.phone.Some? && SeqUtil.Contains(o.phone.value, term))
    || SeqUtil.Contains(o.id, term)
  }

  /** The filter value "all" admits every status, any other value exactly that status. */
  predicate MatchesStatus(o: OrderView, filter: string)
  {
    filter == "all" || o.status == Some(filter)
  }

  function Shown(term: string, filter: string): OrderView -> bool
  {
    (o: OrderView) => MatchesSearch(o, term) && MatchesStatus(o, filter)
  }

  /** The orders the page lists. */
  function FilterOrders(orders: seq<OrderView>, term: string, filter: string): (r: seq<OrderView>)
    ensures SeqUtil.IsSubsequence(r, orders)
    ensures forall o :: o in r <==> o in orders && MatchesSearch(o, term) && MatchesStatus(o, filter)
  {
    SeqUtil.Filter(orders, Shown(term, filter))
  }

  datatype OrderBadge = ActiveBadge | CompletedBadge | PartiallyUsedBadge | UnknownOrderBadge
  datatype SeatBadge = SoldBadge | UsedBadge | UnknownSeatBadge

  function OrderBadgeOf(status: Option<string>): (b: OrderBadge)
    ensures b == ActiveBadge <==> status == Some("active")
    ensures b == CompletedBadge <==> status == Some("completed")
    ensures b == PartiallyUsedBadge <==> status == Some("partially_used")
  {
    match status
    case Some(s) =>
      if s == "active" then ActiveBadge
      else if s == "completed" then CompletedBadge
      else if s == "partially_used" then PartiallyUsedBadge
      else UnknownOrderBadge
    case None => UnknownOrderBadge
  }

  function SeatBadgeOf(status: Option<string>): (b: SeatBadge)
    ensures b == SoldBadge <==> status == Some("sold")
    ensures b == UsedBadge <==> status == Some("used")
  {
    match status
    case Some(s) => if s == "sold" then SoldBadge else if s == "used" then UsedBadge else UnknownSeatBadge
    case None => UnknownSeatBadge
  }

  /** The text of a seat's status column. */
  function StatusText(s: SeatStatus): string
  {
    match s
    case Available => "available"
    case Reserved => "reserved"
    case Sold => "sold"
    case Used => "used"
  }

  // ---------------------------------------------------------------------------
  // Properties

  /** An empty search with the filter "all" lists every loaded order, in order. */
  lemma EmptySearchListsAll(orders: seq<OrderView>)
    ensures FilterOrders(orders, "", "all") == orders
  {
    forall o | o in orders
      ensures Shown("", "all")(o)
    {
      SeqUtil.ContainsEmpty(o.id);
    }
    SeqUtil.FilterKeepsEvery(orders, Shown("", "all"));
  }

  function HasStatus(filter: string): OrderView -> bool
  {
    (o: OrderView) => o.status == Some(filter)
  }

  /** Choosing a status narrows the "all" list to the orders with that status, keeping their order. */
  lemma StatusNarrowsAll(orders: seq<OrderView>, term: string, filter: string)
    requires filter != "all"
    ensures SeqUtil.Filter(FilterOrders(orders, term, "all"), HasStatus(filter)) ==
            FilterOrders(orders, term, filter)
  {
    SeqUtil.FilterTwice(orders, Shown(term, "all"), HasStatus(filter), Shown(term, filter));
  }

  /** Lower-casing twice is lower-casing once. */
  lemma LowerIdempotent(s: string)
    ensures Lower(Lower(s)) == Lower(s)
  {
  }

  /** A name typed in Russian capitals is found by its lower-case spelling. */
  lemma RussianNameFoundInLowerCase(id: string, email: string)
    ensures MatchesSearch(OrderView(id, "\U{0418}\U{0432}\U{0430}\U{043D}", email, None, None),
                          "\U{0438}\U{0432}\U{0430}\U{043D}")
  {
    var name := "\U{0418}\U{0432}\U{0430}\U{043D}";
    var term := "\U{0438}\U{0432}\U{0430}\U{043D}";
    assert Lower(name) == term == Lower(term);
    assert SeqUtil.OccursAt(Lower(name), Lower(term), 0);
  }

  /** Every order a successful checkout stores shows the "completed" badge, and
      each of its seats the "sold" badge. */
  lemma PlacedOrderHasKnownBadges(db: Checkout.Db, req: Checkout.OrderRequest, isEmail: string -> bool,
                                  newOrderId: string, f: Checkout.Faults)
    requires Checkout.PlaceOrder(db, req, isEmail, newOrderId, f).response.status == 200
    ensures var h := Checkout.PlaceOrder(db, req, isEmail, newOrderId, f);
            OrderBadgeOf(Some(h.db.orders[|db.orders|].status)) == CompletedBadge &&
            forall i :: 0 <= i < |req.items| ==>
              SeatBadgeOf(Some(StatusText(h.db.seats[req.items[i].seatId].status))) == SoldBadge
  {
  }

  /** After a ticket is marked used at the door, its seat shows the "used" badge and
      its order either "completed" or "partially used", never the unknown badge. */
  lemma UsedTicketHasKnownBadges(st: DoorScanner.Scanner, db: Checkout.Db, t: DoorScanner.Ticket)
    requires t.seatId != "" && t.seatId in db.seats
    ensures var u := DoorScanner.MarkAsUsed(st, db, Some(t), false, false);
            SeatBadgeOf(Some(StatusText(u.db.seats[t.seatId].status))) == UsedBadge &&
            forall i :: 0 <= i < |u.db.orders| && u.db.orders[i].id == t.orderId ==>
              OrderBadgeOf(Some(u.db.orders[i].status)) in {CompletedBadge, PartiallyUsedBadge}
  {
  }

  /** The search ignores the case of the term's Latin and Russian letters. */
  lemma SearchIgnoresTermCase(o: OrderView, term: string)
    requires o.phone.None?
    requires !SeqUtil.Contains(o.id, term) && !SeqUtil.Contains(o.id, Lower(term))
    ensures MatchesSearch(o, term) <==> MatchesSearch(o, Lower(term))
  {
    LowerIdempotent(term);
  }
}

=== FILE: cart.dfy ===
/** The client cart: the list of chosen seats plus a seat-id to hold-expiry map. */
module Cart {
  import opened Common
  import SeqUtil

  datatype CartItem = CartItem(seat: Seat, zone: Zone, price: int)

  /** `reserved` maps a seat id to the instant (ms) its local hold ends. */
  datatype CartState = CartState(items: seq<CartItem>, reserved: map<SeatId, int>)

  const LocalHoldMillis: int := 10 * 60 * 1000

  function EmptyCart(): CartState
  {
    CartState([], map[])
  }

  /** The seat ids of the items, in cart order. */
  function IdsOf(items: seq<CartItem>): (ids: seq<SeatId>)
    ensures |ids| == |items|
    ensures forall i :: 0 <= i < |items| ==> ids[i] == items[i].seat.id
  {
    seq(|items|, i requires 0 <= i < |items| => items[i].seat.id)
  }

  predicate InCart(c: CartState, id: SeatId)
  {
    id in IdsOf(c.items)
  }

  /** No seat appears twice in the cart. */
  predicate UniqueSeats(items: seq<CartItem>)
  {
    forall i, j :: 0 <= i < j < |items| ==> items[i].seat.id != items[j].seat.id
  }

  /** `addItem`: ignored when the seat is already in the cart; otherwise the item
      goes to the end and the seat is held locally for ten minutes from `now`. */
  function AddItem(c: CartState, item: CartItem, now: int): (r: CartState)
    ensures InCart(c, item.seat.id) ==> r == c
    ensures !InCart(c, item.seat.id) ==>
              r.items == c.items + [item] &&
              item.seat.id in r.reserved && r.reserved[item.seat.id] == now + 600000
    ensures forall id :: id in c.reserved && id != item.seat.id ==> id in r.reserved && r.reserved[id] == c.reserved[id]
    ensures r.reserved.Keys == c.reserved.Keys + (if InCart(c, item.seat.id) then {} else {item.seat.id})
    ensures InCart(r, item.seat.id)
    ensures UniqueSeats(c.items) ==> UniqueSeats(r.items)
  {
    if InCart(c, item.seat.id) then c
    else
      var r := CartState(c.items + [item], c.reserved[item.seat.id := now + LocalHoldMillis]);
      assert IdsOf(r.items)[|c.items|] == item.seat.id;
      r
  }

  function NotSeat(id: SeatId): CartItem -> bool
  {
    (it: CartItem) => it.seat.id != id
  }

  /** `removeItem`: drops every item for the seat and forgets its local hold. */
  function RemoveItem(c: CartState, id: SeatId): (r: CartState)
    ensures !InCart(r, id)
    ensures SeqUtil.IsSubsequence(r.items, c.items)
    ensures forall it :: it in c.items && it.seat.id != id ==> it in r.items
    ensures r.reserved.Keys == c.reserved.Keys - {id}
    ensures forall k :: k in r.reserved ==> r.reserved[k] == c.reserved[k]
  {
    var kept := SeqUtil.Filter(c.items, NotSeat(id));
    assert forall i :: 0 <= i < |kept| ==> IdsOf(kept)[i] != id by {
      forall i | 0 <= i < |kept|
        ensures IdsOf(kept)[i] != id
      {
        assert kept[i] in kept;
      }
    }
    CartState(kept, map k | k in c.reserved && k != id :: c.reserved[k])
  }

  /** `clearCart`: empties the item list and leaves the hold map as it was. */
  function ClearCart(c: CartState): (r: CartState)
    ensures r.items == [] && r.reserved == c.reserved
  {
    c.(items := [])
  }

  /** The item prices in cart order. */
  function Prices(items: seq<CartItem>): (ps: seq<int>)
    ensures |ps| == |items|
    ensures forall i :: 0 <= i < |items| ==> ps[i] == items[i].price
  {
    seq(|items|, i requires 0 <= i < |items| => items[i].price)
  }

  /** `getTotalPrice`: the `reduce` folds from the first item to the last, and
      whichever way it is folded the result is the sum of the item prices. */
  function TotalPrice(items: seq<CartItem>): (total: int)
    ensures total == SeqUtil.Sum(Prices(items))
  {
    if items == [] then 0
    else
      var init, last := items[..|items| - 1], items[|items| - 1];
      assert Prices(items) == Prices(init) + [last.price];
      SeqUtil.SumAppend(Prices(init), [last.price]);
      TotalPrice(init) + last.price
  }

  /** `getTotalItems`. */
  function TotalItems(c: CartState): (n: nat)
    ensures n == |IdsOf(c.items)|
  {
    |c.items|
  }

  /** `reserveSeat`: (re)sets the local hold of one seat; the items are not touched. */
  function ReserveSeat(c: CartState, id: SeatId, now: int): (r: CartState)
    ensures r.items == c.items
    ensures id in r.reserved && r.reserved[id] == now + 600000
    ensures forall k :: k in c.reserved && k != id ==> k in r.reserved && r.reserved[k] == c.reserved[k]
    ensures r.reserved.Keys == c.reserved.Keys + {id}
  {
    c.(reserved := c.reserved[id := now + LocalHoldMillis])
  }

  /** `unreserveSeat`: forgets the local hold of one seat; the items are not touched. */
  function UnreserveSeat(c: CartState, id: SeatId): (r: CartState)
    ensures r.items == c.items
    ensures r.reserved.Keys == c.reserved.Keys - {id}
    ensures forall k :: k in r.reserved ==> r.reserved[k] == c.reserved[k]
  {
    c.(reserved := map k | k in c.reserved && k != id :: c.reserved[k])
  }

  /** An item survives the expiry check when its seat has a recorded expiry that
      is non-zero (zero is falsy in the source) and lies strictly after `now`. */
  predicate Live(reserved: map<SeatId, int>, now: int, item: CartItem)
  {
    item.seat.id in reserved && reserved[item.seat.id] != 0 && now < reserved[item.seat.id]
  }

  function LiveAt(reserved: map<SeatId, int>, now: int): CartItem -> bool
  {
    (it: CartItem) => Live(reserved, now, it)
  }

  /** `checkReservationExpiry`: keeps the live items in order and rebuilds the hold
      map from exactly those items. */
  function CheckExpiry(c: CartState, now: int): (r: CartState)
    ensures SeqUtil.IsSubsequence(r.items, c.items)
    ensures forall it :: it in r.items <==> it in c.items && Live(c.reserved, now, it)
    ensures r.reserved.Keys == set it | it in r.items :: it.seat.id
    ensures forall k :: k in r.reserved ==> k in c.reserved && r.reserved[k] == c.reserved[k] && now < r.reserved[k]
  {
    var kept := SeqUtil.Filter(c.items, LiveAt(c.reserved, now));
    CartState(kept, map it | it in kept :: it.seat.id := c.reserved[it.seat.id])
  }

  // ---------------------------------------------------------------------------
  // Properties

  lemma {:induction false} TotalPriceAppend(items: seq<CartItem>, item: CartItem)
    ensures TotalPrice(items + [item]) == TotalPrice(items) + item.price
  {
    assert (items + [item])[..|items|] == items;
  }

  /** The total is the sum of the item prices in any split of the list. */
  lemma {:induction false} TotalPriceSplit(a: seq<CartItem>, b: seq<CartItem>)
    ensures TotalPrice(a + b) == TotalPrice(a) + TotalPrice(b)
    decreases |b|
  {
    if b == [] {
      assert a + b == a;
    } else {
      var b' := b[..|b| - 1];
      assert a + b == (a + b') + [b[|b| - 1]];
      TotalPriceAppend(a + b', b[|b| - 1]);
      TotalPriceSplit(a, b');
      assert b == b' + [b[|b| - 1]];
      TotalPriceAppend(b', b[|b| - 1]);
    }
  }

  /** Adding a new seat raises the total by its price; adding a seat already present changes nothing. */
  lemma AddItemTotal(c: CartState, item: CartItem, now: int)
    ensures TotalPrice(AddItem(c, item, now).items) ==
            TotalPrice(c.items) + (if InCart(c, item.seat.id) then 0 else item.price)
    ensures TotalItems(AddItem(c, item, now)) == TotalItems(c) + (if InCart(c, item.seat.id) then 0 else 1)
  {
    if !InCart(c, item.seat.id) {
      TotalPriceAppend(c.items, item);
    }
  }

  /** Removing a seat that was just added gives back the original items, and the hold
      map loses only that seat. */
  lemma RemoveUndoesAdd(c: CartState, item: CartItem, now: int)
    requires !InCart(c, item.seat.id)
    ensures RemoveItem(AddItem(c, item, now), item.seat.id).items == c.items
    ensures RemoveItem(AddItem(c, item, now), item.seat.id).reserved == RemoveItem(c, item.seat.id).reserved
  {
    var id := item.seat.id;
    forall it | it in c.items
      ensures NotSeat(id)(it)
    {
      var i :| 0 <= i < |c.items| && c.items[i] == it;
      assert IdsOf(c.items)[i] == it.seat.id;
    }
    SeqUtil.FilterKeepsEvery(c.items, NotSeat(id));
    FilterAppendDropped(c.items, item, id);
  }

  /** In a cart without repeated seats, removing a seat drops exactly the one item at
      that seat's position and keeps the rest in order. */
  lemma RemoveDropsOneItem(c: CartState, id: SeatId, k: int)
    requires UniqueSeats(c.items)
    requires 0 <= k < |c.items| && c.items[k].seat.id == id
    ensures RemoveItem(c, id).items == c.items[..k] + c.items[k + 1..]
    ensures |RemoveItem(c, id).items| == |c.items| - 1
  {
    var before, after := c.items[..k], c.items[k + 1..];
    assert c.items == before + [c.items[k]] + after;
    forall it | it in before
      ensures NotSeat(id)(it)
    {
      var i :| 0 <= i < |before| && before[i] == it;
      assert c.items[i] == it;
    }
    forall it | it in after
      ensures NotSeat(id)(it)
    {
      var i :| 0 <= i < |after| && after[i] == it;
      assert c.items[k + 1 + i] == it;
    }
    SeqUtil.FilterAppend(before + [c.items[k]], after, NotSeat(id));
    FilterAppendDropped(before, c.items[k], id);
    SeqUtil.FilterKeepsEvery(before, NotSeat(id));
    SeqUtil.FilterKeepsEvery(after, NotSeat(id));
  }

  lemma FilterAppendDropped(items: seq<CartItem>, item: CartItem, id: SeatId)
    requires item.seat.id == id
    ensures SeqUtil.Filter(items + [item], NotSeat(id)) == SeqUtil.Filter(items, NotSeat(id))
  {
    SeqUtil.FilterAppend(items, [item], NotSeat(id));
    assert SeqUtil.Filter([item], NotSeat(id)) == [];
  }

  /** Clearing the cart keeps its holds, but they do not outlive the next expiry
      check: with no items left, the check rebuilds an empty hold map. */
  lemma ClearedHoldsDropAtNextCheck(c: CartState, now: int)
    ensures ClearCart(c).reserved == c.reserved
    ensures CheckExpiry(ClearCart(c), now) == EmptyCart()
  {
    var r := CheckExpiry(ClearCart(c), now);
    assert r.items == [];
    assert r.reserved.Keys == {};
  }

  /** Running the expiry check twice at the same instant is the same as running it once. */
  lemma CheckExpiryIdempotent(c: CartState, now: int)
    ensures CheckExpiry(CheckExpiry(c, now), now) == CheckExpiry(c, now)
  {
    var once := CheckExpiry(c, now);
    SeqUtil.FilterKeepsEvery(once.items, LiveAt(once.reserved, now));
    var twice := CheckExpiry(once, now);
    assert twice.items == once.items;
  }

  /** After the expiry check every item has a recorded expiry later than `now`. */
  lemma CheckExpiryLeavesOnlyLive(c: CartState, now: int)
    ensures var r := CheckExpiry(c, now);
            forall it :: it in r.items ==> it.seat.id in r.reserved && now < r.reserved[it.seat.id]
  {
  }

  /** `reserveSeat` and `unreserveSeat` never change the items, so neither the totals. */
  lemma HoldEditsKeepTotals(c: CartState, id: SeatId, now: int)
    ensures TotalPrice(ReserveSeat(c, id, now).items) == TotalPrice(c.items)
    ensures TotalPrice(UnreserveSeat(c, id).items) == TotalPrice(c.items)
    ensures TotalItems(ReserveSeat(c, id, now)) == TotalItems(c)
    ensures TotalItems(UnreserveSeat(c, id)) == TotalItems(c)
  {
  }
}

=== FILE: checkout.dfy ===
/** The order endpoint: request validation, server-side pricing against the
    seat table, then three sequential writes (order row, item rows, seat status)
    followed by ticket delivery whose failure is ignored. */
module Checkout {
  import opened Common
  import opened SeatStore
  import SeqUtil

  /** A requested item has the shape of an order line: a seat and the client's price. */
  type RequestItem = OrderLine

  datatype OrderRequest = OrderRequest(name: string, email: string, phone: Option<string>, items: seq<RequestItem>)

  datatype OrderRow = OrderRow(id: string, name: string, email: string, phone: Option<string>, total: int, status: string)

  datatype ItemRow = ItemRow(orderId: string, seatId: SeatId, price: int)

  /** The store as far as checkout and the scanner read and write it. `zones` holds
      the ids of the zone rows that exist; a zone missing from `zonePrices` stands
      for a seat whose zone or numeric price cannot be read. */
  datatype Db = Db(seats: Table, zones: set<ZoneId>, zonePrices: map<ZoneId, int>, orders: seq<OrderRow>, items: seq<ItemRow>)

  /** Faults of the store calls, in the order they are issued, and of ticket delivery. */
  datatype Faults = Faults(
    readFails: bool,
    orderInsertFails: bool,
    itemsInsertFails: bool,
    seatUpdateFails: bool,
    deliveryFails: bool)

  datatype Response = Response(status: int, orderId: Option<string>)

  /** The ticket e-mail: the customer's address and the order whose tickets it carries. */
  datatype Mail = Mail(to: string, orderId: string)

  /** The store after the request, the answer, and the ticket e-mail if one went out. */
  datatype Handled = Handled(db: Db, response: Response, mail: Option<Mail>)

  /** The request body as read: not JSON at all, JSON whose fields have the wrong
      types or are missing, or a request with every field of the right type. */
  datatype Body = Unreadable | IllTyped | Parsed(req: OrderRequest)

  // ---------------------------------------------------------------------------
  // Validation

  predicate IsHexDigit(c: char)
  {
    '0' <= c <= '9' || 'a' <= c <= 'f' || 'A' <= c <= 'F'
  }

  /** 8-4-4-4-12 hexadecimal digits separated by hyphens. */
  predicate IsUuid(s: string)
  {
    |s| == 36 &&
    forall i :: 0 <= i < 36 ==>
      if i == 8 || i == 13 || i == 18 || i == 23 then s[i] == '-' else IsHexDigit(s[i])
  }

  predicate ItemValid(item: RequestItem)
  {
    IsUuid(item.seatId) && item.price > 0
  }

  /** The length of a string in UTF-16 code units: characters outside the basic
      plane take two. */
  function Utf16Length(s: string): (n: nat)
    ensures |s| <= n <= 2 * |s|
  {
    if s == [] then 0 else (if s[0] as int >= 0x1_0000 then 2 else 1) + Utf16Length(s[1..])
  }

  /** The request schema: a name of at least two UTF-16 code units, an e-mail
      address, and at least one item with a UUID seat id and a positive price. */
  predicate RequestValid(req: OrderRequest, isEmail: string -> bool)
  {
    Utf16Length(req.name) >= 2 &&
    isEmail(req.email) &&
    |req.items| >= 1 &&
    forall i :: 0 <= i < |req.items| ==> ItemValid(req.items[i])
  }

  // ---------------------------------------------------------------------------
  // Seat checks and server-side pricing

  /** The rows `SELECT ... WHERE id IN ids` returns: one per distinct listed id that exists. */
  function FoundIds(t: Table, ids: seq<SeatId>): set<SeatId>
  {
    set id | id in ids && id in t
  }

  predicate Priced(db: Db, id: SeatId)
  {
    id in db.seats && db.seats[id].zoneId in db.zonePrices
  }

  function ZonePrice(db: Db, id: SeatId): int
    requires Priced(db, id)
  {
    db.zonePrices[db.seats[id].zoneId]
  }

  /** Outcome of the per-seat loop. */
  datatype SeatCheck = Conflict(seat: SeatId) | NoPrice(seat: SeatId) | Total(amount: int)

  /** Walks the found seats, stopping at the first one that is not available
      (409) or has no price (500); otherwise sums the zone prices. */
  function CheckSeats(db: Db, ids: seq<SeatId>): (c: SeatCheck)
    requires forall i :: 0 <= i < |ids| ==> ids[i] in db.seats
    ensures c.Conflict? ==> c.seat in ids && db.seats[c.seat].status != Available
    ensures c.NoPrice? ==> c.seat in ids && !Priced(db, c.seat)
    ensures c.Total? <==> forall i :: 0 <= i < |ids| ==> db.seats[ids[i]].status == Available && Priced(db, ids[i])
    ensures c.Total? ==> c.amount == SeqUtil.Sum(ServerPrices(db, ids))
    ensures (forall i :: 0 <= i < |ids| ==> Priced(db, ids[i])) && !c.Total? ==> c.Conflict?
    ensures (forall i :: 0 <= i < |ids| ==> db.seats[ids[i]].status == Available) && !c.Total? ==> c.NoPrice?
  {
    if ids == [] then Total(0)
    else
      var id := ids[0];
      if db.seats[id].status != Available then Conflict(id)
      else if !Priced(db, id) then NoPrice(id)
      else
        match CheckSeats(db, ids[1..])
        case Total(rest) => Total(ZonePrice(db, id) + rest)
        case other => other
  }

  /** The zone price of every listed seat, in order. */
  function ServerPrices(db: Db, ids: seq<SeatId>): (ps: seq<int>)
    requires forall i :: 0 <= i < |ids| ==> Priced(db, ids[i])
    ensures |ps| == |ids|
    ensures forall i :: 0 <= i < |ids| ==> ps[i] == ZonePrice(db, ids[i])
  {
    if ids == [] then [] else [ZonePrice(db, ids[0])] + ServerPrices(db, ids[1..])
  }

  /** The item rows: each requested seat at its zone price; the client's price is dropped. */
  function ItemRows(db: Db, orderId: string, items: seq<RequestItem>): (rows: seq<ItemRow>)
    requires forall i :: 0 <= i < |items| ==> Priced(db, items[i].seatId)
    ensures |rows| == |items|
    ensures forall i :: 0 <= i < |items| ==>
              rows[i] == ItemRow(orderId, items[i].seatId, ZonePrice(db, items[i].seatId))
  {
    seq(|items|, i requires 0 <= i < |items| => ItemRow(orderId, items[i].seatId, ZonePrice(db, items[i].seatId)))
  }

  /** UPDATE seats SET status = sold WHERE id IN ids; the expiry column is left as it is. */
  function MarkSold(t: Table, ids: seq<SeatId>): (r: Table)
    ensures r.Keys == t.Keys
    ensures forall id :: id in t && id in ids ==>
              SamePlace(r[id], t[id]) && r[id].status == Sold && r[id].reservedUntil == t[id].reservedUntil
    ensures forall id :: id in t && id !in ids ==> r[id] == t[id]
  {
    map id | id in t :: if id in ids then t[id].(status := Sold) else t[id]
  }

  // ---------------------------------------------------------------------------
  // The handler

  /** POST /api/orders. `newOrderId` is the id the store assigns to the new order row. */
  function PlaceOrder(db: Db, req: OrderRequest, isEmail: string -> bool, newOrderId: string, f: Faults): (h: Handled)
    ensures !RequestValid(req, isEmail) ==> h == Handled(db, Response(400, None), None)
    ensures h.response.status == 200 <==> h.response.orderId.Some?
    ensures h.response.status in {200, 400, 404, 409, 500}
    ensures h.db.seats.Keys == db.seats.Keys
    ensures h.response.status == 200 ==>
              h.response.orderId == Some(newOrderId) &&
              |h.db.orders| == |db.orders| + 1 &&
              h.db.orders[..|db.orders|] == db.orders &&
              h.db.orders[|db.orders|].status == "completed" &&
              forall i :: 0 <= i < |req.items| ==>
                req.items[i].seatId in h.db.seats && h.db.seats[req.items[i].seatId].status == Sold
    ensures h.response.status in {400, 404, 409} ==> h.db == db
    ensures h.response.status == 200 ==>
              forall i :: 0 <= i < |req.items| ==>
                req.items[i].seatId in db.seats && db.seats[req.items[i].seatId].status == Available &&
                Priced(db, req.items[i].seatId)
    ensures h.db.seats != db.seats ==> h.response.status == 200
    ensures h.mail.Some? <==> h.response.status == 200 && !f.deliveryFails
    ensures h.mail.Some? ==> h.mail.value == Mail(req.email, newOrderId)
  {
    if !RequestValid(req, isEmail) then Handled(db, Response(400, None), None)
    else if f.readFails then Handled(db, Response(500, None), None)
    else
      var ids := SeatIds(req.items);
      if |FoundIds(db.seats, ids)| != |ids| then Handled(db, Response(404, None), None)
      else
        AllFound(db.seats, ids);
        match CheckSeats(db, ids)
        case Conflict(_) => Handled(db, Response(409, None), None)
        case NoPrice(_) => Handled(db, Response(500, None), None)
        case Total(amount) => Commit(db, req, ids, amount, newOrderId, f)
  }

  /** POST /api/orders from the raw body: a body that is not JSON makes reading it
      throw, which the handler's outer catch answers with 500; a body that fails the
      schema's types is answered 400 like any other invalid request. */
  function Post(db: Db, body: Body, isEmail: string -> bool, newOrderId: string, f: Faults): (h: Handled)
    ensures body.Unreadable? ==> h == Handled(db, Response(500, None), None)
    ensures body.IllTyped? ==> h == Handled(db, Response(400, None), None)
    ensures body.Parsed? ==> h == PlaceOrder(db, body.req, isEmail, newOrderId, f)
    ensures h.response.status == 200 ==> body.Parsed? && RequestValid(body.req, isEmail)
  {
    match body
    case Unreadable => Handled(db, Response(500, None), None)
    case IllTyped => Handled(db, Response(400, None), None)
    case Parsed(req) => PlaceOrder(db, req, isEmail, newOrderId, f)
  }

  /** The three writes after the checks passed, each issued only if the previous one succeeded. */
  function Commit(db: Db, req: OrderRequest, ids: seq<SeatId>, amount: int, newOrderId: string, f: Faults): (h: Handled)
    requires ids == SeatIds(req.items)
    requires forall i :: 0 <= i < |ids| ==> Priced(db, ids[i])
    ensures h.response.status == 200 || h.response == Response(500, None)
    ensures h.db.zones == db.zones && h.db.zonePrices == db.zonePrices
    ensures h.db.orders == db.orders || h.db.orders == db.orders + [OrderRow(newOrderId, req.name, req.email, req.phone, amount, "completed")]
    ensures h.db.items == db.items || h.db.items == db.items + ItemRows(db, newOrderId, req.items)
    ensures h.db.seats == db.seats || h.db.seats == MarkSold(db.seats, ids)
    ensures h.response.status == 200 <==> !f.orderInsertFails && !f.itemsInsertFails && !f.seatUpdateFails
    ensures h.response.status == 200 ==>
              h.response.orderId == Some(newOrderId) &&
              h.db == Db(MarkSold(db.seats, ids), db.zones, db.zonePrices,
                         db.orders + [OrderRow(newOrderId, req.name, req.email, req.phone, amount, "completed")],
                         db.items + ItemRows(db, newOrderId, req.items))
    ensures h.response.status != 200 ==> h.response.orderId == None && h.db.seats == db.seats
    ensures h.mail.Some? <==> h.response.status == 200 && !f.deliveryFails
    ensures h.mail.Some? ==> h.mail.value == Mail(req.email, newOrderId)
  {
    if f.orderInsertFails then Handled(db, Response(500, None), None)
    else
      var order := OrderRow(newOrderId, req.name, req.email, req.phone, amount, "completed");
      var db1 := db.(orders := db.orders + [order]);
      if f.itemsInsertFails then Handled(db1, Response(500, None), None)
      else
        var db2 := db1.(items := db.items + ItemRows(db, newOrderId, req.items));
        if f.seatUpdateFails then Handled(db2, Response(500, None), None)
        else
          // Ticket generation and e-mail run here; a failure is caught, logged and not reported.
          var mail := if f.deliveryFails then None else Some(Mail(req.email, newOrderId));
          Handled(db2.(seats := MarkSold(db.seats, ids)), Response(200, Some(newOrderId)), mail)
  }

  /** When as many rows come back as ids were sent, every id exists and no id repeats. */
  lemma AllFound(t: Table, ids: seq<SeatId>)
    requires |FoundIds(t, ids)| == |ids|
    ensures forall i :: 0 <= i < |ids| ==> ids[i] in t
    ensures forall i, j :: 0 <= i < j < |ids| ==> ids[i] != ids[j]
  {
    var found := FoundIds(t, ids);
    forall i | 0 <= i < |ids|
      ensures ids[i] in t
    {
      if ids[i] !in t {
        FoundWithoutSmaller(t, ids, i);
      }
    }
    forall i, j | 0 <= i < j < |ids|
      ensures ids[i] != ids[j]
    {
      if ids[i] == ids[j] {
        FoundWithoutSmaller(t, ids, j);
      }
    }
  }

  /** If position `k` adds nothing new (missing, or repeating an earlier id), fewer rows than ids are found. */
  lemma FoundWithoutSmaller(t: Table, ids: seq<SeatId>, k: int)
    requires 0 <= k < |ids|
    requires ids[k] !in t || exists i :: 0 <= i < k && ids[i] == ids[k]
    ensures |FoundIds(t, ids)| < |ids|
  {
    var without := ids[..k] + ids[k + 1..];
    assert FoundIds(t, ids) <= FoundIds(t, without) by {
      forall id | id in FoundIds(t, ids)
        ensures id in FoundIds(t, without)
      {
        var j :| 0 <= j < |ids| && ids[j] == id;
        if j < k {
          assert without[j] == id;
        } else if j > k {
          assert without[j - 1] == id;
        } else {
          var i :| 0 <= i < k && ids[i] == ids[k];
          assert without[i] == id;
        }
      }
    }
    FoundAtMostLength(t, without);
    SetSizeMonotone(FoundIds(t, ids), FoundIds(t, without));
  }

  lemma FoundAtMostLength(t: Table, ids: seq<SeatId>)
    ensures |FoundIds(t, ids)| <= |ids|
  {
    if ids != [] {
      FoundAtMostLength(t, ids[1..]);
      assert FoundIds(t, ids) <= FoundIds(t, ids[1..]) + {ids[0]};
      SetSizeMonotone(FoundIds(t, ids), FoundIds(t, ids[1..]) + {ids[0]});
    } else {
      assert FoundIds(t, ids) == {};
    }
  }

  lemma SetSizeMonotone<T>(a: set<T>, b: set<T>)
    requires a <= b
    ensures |a| <= |b|
  {
    assert b == a + (b - a);
  }

  // ---------------------------------------------------------------------------
  // Properties of the handler

  /** Requesting the same seat twice, at any two positions, finds fewer rows than
      ids and is answered 404 with the store untouched. */
  lemma DuplicateSeatIsNotFound(db: Db, req: OrderRequest, isEmail: string -> bool, newOrderId: string, f: Faults)
    requires RequestValid(req, isEmail) && !f.readFails
    requires exists i, j :: 0 <= i < j < |req.items| && req.items[i].seatId == req.items[j].seatId
    ensures PlaceOrder(db, req, isEmail, newOrderId, f) == Handled(db, Response(404, None), None)
  {
    var ids := SeatIds(req.items);
    var i, j :| 0 <= i < j < |req.items| && req.items[i].seatId == req.items[j].seatId;
    assert ids[i] == ids[j];
    FoundWithoutSmaller(db.seats, ids, j);
  }

  /** The name rule counts UTF-16 code units, so a single character outside the
      basic plane is long enough while a single letter of the basic plane is not. */
  lemma NameLengthInCodeUnits()
    ensures |"\U{1F600}"| == 1 && Utf16Length("\U{1F600}") == 2
    ensures Utf16Length("\U{0418}") == 1
  {
  }

  /** A requested id with no seat row makes fewer rows come back than ids were
      sent: the answer is 404 and the store is untouched. */
  lemma MissingSeatIsNotFound(db: Db, req: OrderRequest, isEmail: string -> bool, newOrderId: string, f: Faults)
    requires RequestValid(req, isEmail) && !f.readFails
    requires exists i :: 0 <= i < |req.items| && req.items[i].seatId !in db.seats
    ensures PlaceOrder(db, req, isEmail, newOrderId, f) == Handled(db, Response(404, None), None)
  {
    var i :| 0 <= i < |req.items| && req.items[i].seatId !in db.seats;
    FoundWithoutSmaller(db.seats, SeatIds(req.items), i);
  }

  /** A seat that is not available (held, sold or used) cannot be bought: when
      every seat is found and priced, checkout answers 409 with the store untouched. */
  lemma TakenSeatIsRejected(db: Db, req: OrderRequest, isEmail: string -> bool, newOrderId: string, f: Faults)
    requires RequestValid(req, isEmail) && !f.readFails
    requires |FoundIds(db.seats, SeatIds(req.items))| == |req.items|
    requires forall i :: 0 <= i < |req.items| ==> Priced(db, req.items[i].seatId)
    requires exists i :: 0 <= i < |req.items| && req.items[i].seatId in db.seats &&
                         db.seats[req.items[i].seatId].status != Available
    ensures PlaceOrder(db, req, isEmail, newOrderId, f) == Handled(db, Response(409, None), None)
  {
    AllFound(db.seats, SeatIds(req.items));
  }

  /** A seat held by the reservation endpoint cannot be bought: checkout answers 409, even to the holder. */
  lemma ReservedSeatIsRejected(db: Db, req: OrderRequest, isEmail: string -> bool, newOrderId: string, f: Faults)
    requires RequestValid(req, isEmail) && !f.readFails
    requires |FoundIds(db.seats, SeatIds(req.items))| == |req.items|
    requires forall i :: 0 <= i < |req.items| ==> Priced(db, req.items[i].seatId)
    requires exists i :: 0 <= i < |req.items| && req.items[i].seatId in db.seats &&
                         db.seats[req.items[i].seatId].status == Reserved
    ensures PlaceOrder(db, req, isEmail, newOrderId, f) == Handled(db, Response(409, None), None)
  {
    TakenSeatIsRejected(db, req, isEmail, newOrderId, f);
  }

  /** The prices the client sends have no effect: two requests that differ only in them are answered and stored alike. */
  lemma ClientPricesIgnored(db: Db, req: OrderRequest, req': OrderRequest, isEmail: string -> bool, newOrderId: string, f: Faults)
    requires RequestValid(req, isEmail) && RequestValid(req', isEmail)
    requires req.name == req'.name && req.email == req'.email && req.phone == req'.phone
    requires |req.items| == |req'.items|
    requires forall i :: 0 <= i < |req.items| ==> req.items[i].seatId == req'.items[i].seatId
    ensures PlaceOrder(db, req, isEmail, newOrderId, f) == PlaceOrder(db, req', isEmail, newOrderId, f)
  {
    assert SeatIds(req.items) == SeatIds(req'.items);
    var ids := SeatIds(req.items);
    if |FoundIds(db.seats, ids)| == |ids| {
      AllFound(db.seats, ids);
      if CheckSeats(db, ids).Total? {
        assert ItemRows(db, newOrderId, req.items) == ItemRows(db, newOrderId, req'.items);
      }
    }
  }

  /** When the request is valid, every seat exists once, is available and priced, and no
      write fails, the order is placed: its total is the sum of the zone prices and each
      item row carries its seat's zone price. */
  lemma SuccessChargesZonePrices(db: Db, req: OrderRequest, isEmail: string -> bool, newOrderId: string, f: Faults)
    requires RequestValid(req, isEmail)
    requires !f.readFails && !f.orderInsertFails && !f.itemsInsertFails && !f.seatUpdateFails
    requires |FoundIds(db.seats, SeatIds(req.items))| == |req.items|
    requires forall i :: 0 <= i < |req.items| ==>
               Priced(db, req.items[i].seatId) && db.seats[req.items[i].seatId].status == Available
    ensures var ids := SeatIds(req.items);
            var h := PlaceOrder(db, req, isEmail, newOrderId, f);
            && h.response == Response(200, Some(newOrderId))
            && h.db.orders == db.orders + [OrderRow(newOrderId, req.name, req.email, req.phone,
                                                    SeqUtil.Sum(ServerPrices(db, ids)), "completed")]
            && h.db.items == db.items + ItemRows(db, newOrderId, req.items)
            && h.db.seats == MarkSold(db.seats, ids)
  {
    var ids := SeatIds(req.items);
    AllFound(db.seats, ids);
    assert CheckSeats(db, ids).Total?;
  }

  /** A failure to render or mail the tickets does not change the answer or the
      store: it only means that no ticket e-mail goes out for a placed order. */
  lemma DeliveryFailureIgnored(db: Db, req: OrderRequest, isEmail: string -> bool, newOrderId: string, f: Faults)
    ensures var failed := PlaceOrder(db, req, isEmail, newOrderId, f.(deliveryFails := true));
            var mailed := PlaceOrder(db, req, isEmail, newOrderId, f.(deliveryFails := false));
            failed.db == mailed.db && failed.response == mailed.response && failed.mail.None? &&
            (mailed.response.status == 200 ==> mailed.mail == Some(Mail(req.email, newOrderId)))
  {
  }

  /** The writes are not atomic: when the item insert fails, the order row stays behind and no seat is sold. */
  lemma ItemsFailureLeavesOrder(db: Db, req: OrderRequest, isEmail: string -> bool, newOrderId: string, f: Faults)
    requires RequestValid(req, isEmail) && !f.readFails && !f.orderInsertFails && f.itemsInsertFails
    requires |FoundIds(db.seats, SeatIds(req.items))| == |req.items|
    requires forall i :: 0 <= i < |req.items| ==>
               Priced(db, req.items[i].seatId) && db.seats[req.items[i].seatId].status == Available
    ensures var h := PlaceOrder(db, req, isEmail, newOrderId, f);
            h.response.status == 500 && |h.db.orders| == |db.orders| + 1 && h.db.seats == db.seats
  {
    AllFound(db.seats, SeatIds(req.items));
  }
}

=== FILE: common.dfy ===
/** Shared vocabulary of the booking core: seats, zones, their status, and time. */
module Common {

  datatype Option<+T> = None | Some(value: T)

  type SeatId = string
  type ZoneId = string

  /** The status column of a seat row. The store holds exactly these four strings. */
  datatype SeatStatus = Available | Reserved | Sold | Used

  /** A zone as loaded from the store: its id and the price every seat in it sells for. */
  datatype Zone = Zone(id: ZoneId, name: string, price: int)

  /** A seat row; `reservedUntil` is the nullable hold expiry in milliseconds.
      Coordinates are display geometry and are not part of the model. */
  datatype Seat = Seat(
    id: SeatId,
    zoneId: ZoneId,
    rowNumber: int,
    seatNumber: int,
    status: SeatStatus,
    reservedUntil: Option<int>)

  const MillisPerMinute: int := 60 * 1000

  /** Every hold in the code base lasts ten minutes unless a caller says otherwise. */
  const DefaultHoldMinutes: int := 10

  function HoldExpiry(now: int, minutes: int): (r: int)
    ensures minutes >= 0 ==> r >= now
    ensures r - now == minutes * 60000
  {
    now + minutes * MillisPerMinute
  }
}

=== FILE: door_scanner.dfy ===
/** The ticket scanner at the door. A scanned code is looked up as an (order, seat)
    pair, classified by the seat's status, and a valid ticket is then marked as used,
    which also recomputes the order's status. The scanner has an automatic mode
    (the camera stops on each scan, a modal shows the verdict) and a manual mode
    (the operator sees the ticket and restarts the camera).

    Timed callbacks of the page (the 1 s delayed mark-as-used, the 2 s cooldown
    release, the 3 s modal close, the 300 ms and 500 ms camera restarts) are
    separate transitions here, for the caller to apply in that order. */
module DoorScanner {
  import opened Common
  import opened SeatStore
  import opened Checkout
  import SeqUtil

  datatype Mode = Auto | Manual

  /** The ticket status shown to the operator. */
  datatype Verdict = Valid | AlreadyUsed | Invalid

  /** What the QR code carries. */
  datatype Payload = Payload(orderId: string, seatId: string)

  /** The ticket as shown: its order, its seat and the seat's status at lookup time. */
  datatype Ticket = Ticket(orderId: string, seatId: SeatId, seatStatus: SeatStatus)

  datatype Scanner = Scanner(
    mode: Mode,
    scanning: bool,
    lastCode: string,
    cooldown: bool,
    ticket: Option<Ticket>,
    verdict: Option<Verdict>,
    modalOpen: bool,
    loading: bool)

  /** The page as it first renders. */
  function Initial(): Scanner
  {
    Scanner(Manual, false, "", false, None, None, false, false)
  }

  /** Sold is a ticket that may enter, used is a ticket that already entered, and any other status is invalid. */
  function Classify(s: SeatStatus): (v: Verdict)
    ensures v == Valid <==> s == Sold
    ensures v == AlreadyUsed <==> s == Used
    ensures v == Invalid <==> s == Available || s == Reserved
  {
    if s == Sold then Valid
    else if s == Used then AlreadyUsed
    else
      assert s == Available || s == Reserved;
      Invalid
  }

  // ---------------------------------------------------------------------------
  // Ticket lookup

  function ForPayload(p: Payload): ItemRow -> bool
  {
    (it: ItemRow) => it.orderId == p.orderId && it.seatId == p.seatId
  }

  predicate OrderExists(db: Db, id: string)
  {
    exists i :: 0 <= i < |db.orders| && db.orders[i].id == id
  }

  /** The item query joined with its order, its seat and the seat's zone, asked for
      a single row: it yields a ticket only when exactly one item row matches and the
      joined order, seat and zone rows exist. Reading the id of a missing zone
      throws, which the page treats like a missing ticket. */
  function LookUp(db: Db, p: Payload, fails: bool): (t: Option<Ticket>)
    ensures t.Some? <==>
              !fails && |SeqUtil.Filter(db.items, ForPayload(p))| == 1 &&
              p.seatId in db.seats && db.seats[p.seatId].zoneId in db.zones && OrderExists(db, p.orderId)
    ensures t.Some? ==> t.value == Ticket(p.orderId, p.seatId, db.seats[p.seatId].status)
  {
    if fails || |SeqUtil.Filter(db.items, ForPayload(p))| != 1 then None
    else if p.seatId !in db.seats || !OrderExists(db, p.orderId) then None
    else if db.seats[p.seatId].zoneId !in db.zones then None
    else Some(Ticket(p.orderId, p.seatId, db.seats[p.seatId].status))
  }

  /** Parsing the scanned text and looking the ticket up; any failure is a missing ticket. */
  function Resolve(db: Db, text: string, parse: string -> Option<Payload>, fails: bool): (t: Option<Ticket>)
    ensures parse(text).None? ==> t.None?
    ensures parse(text).Some? ==> t == LookUp(db, parse(text).value, fails)
  {
    match parse(text)
    case None => None
    case Some(p) => LookUp(db, p, fails)
  }

  // ---------------------------------------------------------------------------
  // Transitions

  /** A scan gets past the guards when the camera is on (manual mode), no cooldown
      is active, and the text differs from the last accepted one. */
  predicate Accepts(st: Scanner, text: string)
  {
    !(st.mode == Manual && !st.scanning) && !st.cooldown && text != st.lastCode
  }

  /** The scan handler, once its lookup has completed. */
  function OnScan(st: Scanner, text: string, parse: string -> Option<Payload>, db: Db, fails: bool): (r: Scanner)
    ensures !Accepts(st, text) ==> r == st
    ensures Accepts(st, text) ==>
              r.cooldown && r.lastCode == text && !r.scanning && !r.loading && r.mode == st.mode
    ensures Accepts(st, text) ==>
              r.verdict == Some(match Resolve(db, text, parse, fails)
                                case None => Invalid
                                case Some(t) => Classify(t.seatStatus))
    ensures Accepts(st, text) && st.mode == Auto ==>
              r.modalOpen && (r.ticket.Some? <==> r.verdict == Some(Valid))
    ensures Accepts(st, text) && st.mode == Manual ==>
              r.modalOpen == st.modalOpen &&
              r.ticket == (if Resolve(db, text, parse, fails).Some? then Resolve(db, text, parse, fails) else st.ticket)
  {
    if st.mode == Manual && !st.scanning then st
    else if st.cooldown || text == st.lastCode then st
    else
      // The guard is set first; in automatic mode the camera then stops.
      var guarded := st.(cooldown := true, lastCode := text, scanning := if st.mode == Auto then false else st.scanning);
      var found := Resolve(db, text, parse, fails);
      var shown :=
        match found
        case Some(t) =>
          if st.mode == Auto then
            var v := Classify(t.seatStatus);
            guarded.(modalOpen := true, ticket := if v == Valid then Some(t) else None, verdict := Some(v))
          else
            guarded.(ticket := Some(t), verdict := Some(Classify(t.seatStatus)), scanning := false)
        case None =>
          if st.mode == Auto then guarded.(modalOpen := true, ticket := None, verdict := Some(Invalid))
          else guarded.(verdict := Some(Invalid), scanning := false);
      shown.(loading := false)
  }

  /** The delayed cooldown release, scheduled only in automatic mode. */
  function ReleaseCooldown(st: Scanner): (r: Scanner)
    ensures !r.cooldown
    ensures r.(cooldown := st.cooldown) == st
  {
    st.(cooldown := false)
  }

  /** Starting the camera: a no-op while it runs. In manual mode the scan guard is
      cleared so the same ticket can be scanned again. A camera that fails to
      start leaves the scanner off. */
  function StartScanning(st: Scanner, cameraFails: bool): (r: Scanner)
    ensures st.scanning ==> r == st
    ensures !st.scanning ==> r.scanning == !cameraFails
    ensures !st.scanning && st.mode == Manual ==> !r.cooldown && r.lastCode == ""
    ensures !st.scanning && st.mode == Auto ==> r.cooldown == st.cooldown && r.lastCode == st.lastCode
    ensures r.mode == st.mode && r.ticket == st.ticket && r.verdict == st.verdict && r.modalOpen == st.modalOpen
  {
    if st.scanning then st
    else
      var on := st.(scanning := true);
      var cleared := if st.mode == Manual then on.(cooldown := false, lastCode := "") else on;
      if cameraFails then cleared.(scanning := false) else cleared
  }

  /** The automatic mode's modal closes after 3 s and the camera is started again. */
  function CloseModal(st: Scanner, cameraFails: bool): (r: Scanner)
    ensures !r.modalOpen && r.ticket.None? && r.verdict.None?
    ensures r.mode == st.mode
  {
    StartScanning(st.(modalOpen := false, ticket := None, verdict := None), cameraFails)
  }

  /** Switching modes stops the camera and clears every piece of scan state. */
  function ChangeMode(st: Scanner, toAuto: bool): (r: Scanner)
    ensures r.mode == (if toAuto then Auto else Manual)
    ensures !r.scanning && !r.cooldown && r.lastCode == "" && r.ticket.None? && r.verdict.None?
    ensures !r.modalOpen && !r.loading
  {
    Scanner(if toAuto then Auto else Manual, false, "", false, None, None, false, false)
  }

  /** The operator's reset: clears the ticket, the verdict and the scan guard; the
      mode, the camera and the modal stay as they are. */
  function ResetState(st: Scanner): (r: Scanner)
    ensures r.ticket.None? && r.verdict.None? && r.lastCode == "" && !r.cooldown && !r.loading
    ensures r.mode == st.mode && r.scanning == st.scanning && r.modalOpen == st.modalOpen
  {
    st.(ticket := None, verdict := None, lastCode := "", cooldown := false, loading := false)
  }

  // ---------------------------------------------------------------------------
  // Marking a ticket as used

  /** UPDATE seats SET status = used WHERE id = seat; nothing else of the seat changes. */
  function SetUsed(t: Table, id: SeatId): (r: Table)
    ensures r.Keys == t.Keys
    ensures id in t ==> r[id] == t[id].(status := Used)
    ensures forall k :: k in t && k != id ==> r[k] == t[k]
  {
    if id in t then t[id := t[id].(status := Used)] else t
  }

  /** Every item of the order whose seat row exists has a used seat (the
      order's items joined with their seats, all rows counted as used). */
  predicate AllUsed(db: Db, orderId: string)
  {
    forall i :: 0 <= i < |db.items| && db.items[i].orderId == orderId && db.items[i].seatId in db.seats ==>
      db.seats[db.items[i].seatId].status == Used
  }

  /** The order status after a ticket of it was used. */
  function StatusAfterUse(db: Db, orderId: string): (s: string)
    ensures s == "completed" <==> AllUsed(db, orderId)
    ensures s == "completed" || s == "partially_used"
  {
    if AllUsed(db, orderId) then "completed" else "partially_used"
  }

  /** UPDATE orders SET status = <completed or partially_used> WHERE id = order. */
  function RecomputeOrder(db: Db, orderId: string): (r: Db)
    ensures r.seats == db.seats && r.items == db.items && r.zonePrices == db.zonePrices
    ensures |r.orders| == |db.orders|
    ensures forall i :: 0 <= i < |db.orders| && db.orders[i].id != orderId ==> r.orders[i] == db.orders[i]
    ensures forall i :: 0 <= i < |db.orders| && db.orders[i].id == orderId ==>
              r.orders[i] == db.orders[i].(status := r.orders[i].status) &&
              (r.orders[i].status == "completed" <==> AllUsed(db, orderId)) &&
              (r.orders[i].status == "completed" || r.orders[i].status == "partially_used")
  {
    var s := StatusAfterUse(db, orderId);
    db.(orders := seq(|db.orders|, i requires 0 <= i < |db.orders| =>
                        if db.orders[i].id == orderId then db.orders[i].(status := s) else db.orders[i]))
  }

  datatype AfterUse = AfterUse(scanner: Scanner, db: Db)

  /** Marks the given ticket, or else the one on screen, as used. Without a ticket
      (or with an empty seat id) nothing happens at all. A failed seat update
      changes nothing but the spinner; a failed order update is only logged. In
      manual mode the screen is then cleared for the next scan. */
  function MarkAsUsed(st: Scanner, db: Db, given: Option<Ticket>, seatFails: bool, orderFails: bool): (u: AfterUse)
    ensures var t := if given.Some? then given else st.ticket;
            (t.None? || t.value.seatId == "") ==> u == AfterUse(st, db)
    ensures var t := if given.Some? then given else st.ticket;
            t.Some? && t.value.seatId != "" && seatFails ==> u.db == db && u.scanner == st.(loading := false)
    ensures var t := if given.Some? then given else st.ticket;
            t.Some? && t.value.seatId != "" && !seatFails ==>
              u.db.seats == SetUsed(db.seats, t.value.seatId) && u.db.items == db.items &&
              (orderFails ==> u.db.orders == db.orders) &&
              (!orderFails ==> u.db == RecomputeOrder(db.(seats := SetUsed(db.seats, t.value.seatId)), t.value.orderId)) &&
              (st.mode == Auto ==> u.scanner.verdict == Some(AlreadyUsed)) &&
              (st.mode == Manual ==> u.scanner.verdict.None? && u.scanner.ticket.None? && !u.scanner.cooldown && u.scanner.lastCode == "")
  {
    var t := if given.Some? then given else st.ticket;
    if t.None? || t.value.seatId == "" then AfterUse(st, db)
    else if seatFails then AfterUse(st.(loading := false), db)
    else
      var db1 := db.(seats := SetUsed(db.seats, t.value.seatId));
      var db2 := if orderFails then db1 else RecomputeOrder(db1, t.value.orderId);
      var shown := st.(verdict := Some(AlreadyUsed),
                       ticket := if st.ticket.Some? then Some(st.ticket.value.(seatStatus := Used)) else None,
                       loading := false);
      var next := if st.mode == Manual
                  then shown.(ticket := None, verdict := None, lastCode := "", cooldown := false)
                  else shown;
      AfterUse(next, db2)
  }

  // ---------------------------------------------------------------------------
  // Properties

  /** Scanning the same code twice in a row: the second scan is ignored. */
  lemma RepeatScanIgnored(st: Scanner, text: string, parse: string -> Option<Payload>, db: Db, fails: bool)
    ensures var once := OnScan(st, text, parse, db, fails);
            OnScan(once, text, parse, db, fails) == once
  {
  }

  /** Switching to manual mode always yields the page's initial state. */
  lemma ManualSwitchIsInitial(st: Scanner)
    ensures ChangeMode(st, false) == Initial()
  {
  }

  /** After a reset with the camera on, the very same code is accepted again. */
  lemma ResetAllowsRescan(st: Scanner, text: string)
    requires st.scanning
    requires text != ""
    ensures Accepts(ResetState(st), text)
  {
  }

  /** In manual mode, marking the ticket used and restarting the camera lets the next code through. */
  lemma ManualRestartAcceptsNextScan(st: Scanner, db: Db, seatFails: bool, orderFails: bool, text: string)
    requires st.mode == Manual
    requires st.ticket.Some? && st.ticket.value.seatId != ""
    requires !seatFails
    requires text != ""
    ensures Accepts(StartScanning(MarkAsUsed(st, db, None, seatFails, orderFails).scanner, false), text)
  {
  }

  /** Marking a ticket used keeps every item row, seat row and order id, so the ticket is still found. */
  lemma LookUpSurvivesUse(db: Db, p: Payload, id: SeatId, orderId: string)
    requires LookUp(db, p, false).Some?
    ensures LookUp(RecomputeOrder(db.(seats := SetUsed(db.seats, id)), orderId), p, false).Some?
  {
    var db2 := RecomputeOrder(db.(seats := SetUsed(db.seats, id)), orderId);
    var i :| 0 <= i < |db.orders| && db.orders[i].id == p.orderId;
    assert db2.orders[i].id == p.orderId;
  }

  /** A ticket admits once: after a valid ticket is marked used, scanning it again shows "already used". */
  lemma TicketAdmitsOnce(st: Scanner, db: Db, p: Payload, orderFails: bool)
    requires LookUp(db, p, false).Some? && Classify(LookUp(db, p, false).value.seatStatus) == Valid
    requires p.seatId != ""
    ensures var u := MarkAsUsed(st, db, LookUp(db, p, false), false, orderFails);
            LookUp(u.db, p, false).Some? &&
            Classify(LookUp(u.db, p, false).value.seatStatus) == AlreadyUsed
  {
    var t := LookUp(db, p, false).value;
    var u := MarkAsUsed(st, db, Some(t), false, orderFails);
    var db1 := db.(seats := SetUsed(db.seats, t.seatId));
    assert t.seatId == p.seatId && p.seatId in db.seats;
    assert u.db.seats[p.seatId].status == Used;
    if !orderFails {
      LookUpSurvivesUse(db, p, t.seatId, t.orderId);
    } else {
      assert u.db.items == db.items && u.db.orders == db.orders && u.db.seats.Keys == db.seats.Keys;
      assert OrderExists(u.db, p.orderId);
    }
  }

  /** A sold ticket whose seat has lost its zone row is still rejected: the zone
      join fails, and the scan shows the invalid verdict in either mode. */
  lemma ZonelessSeatIsInvalid(st: Scanner, text: string, parse: string -> Option<Payload>, db: Db, p: Payload)
    requires Accepts(st, text)
    requires parse(text) == Some(p)
    requires p.seatId in db.seats && db.seats[p.seatId].zoneId !in db.zones
    ensures OnScan(st, text, parse, db, false).verdict == Some(Invalid)
    ensures st.mode == Auto ==> OnScan(st, text, parse, db, false).ticket.None?
  {
  }

  /** In automatic mode, once the cooldown has been released and the modal has
      closed, the camera runs again, yet the same code stays blocked: only a
      different code is accepted until something resets the last code. */
  lemma AutoTimersKeepLastCodeBlocked(st: Scanner, text: string, other: string,
                                      parse: string -> Option<Payload>, db: Db, fails: bool)
    requires st.mode == Auto && Accepts(st, text)
    requires other != text
    ensures var after := CloseModal(ReleaseCooldown(OnScan(st, text, parse, db, fails)), false);
            after.scanning && after.lastCode == text &&
            !Accepts(after, text) && Accepts(after, other)
  {
  }

  /** Using the only ticket of a one-seat order completes the order. */
  lemma LastTicketCompletesOrder(db: Db, t: Ticket)
    requires t.seatId != "" && t.seatId in db.seats
    requires forall i :: 0 <= i < |db.items| && db.items[i].orderId == t.orderId ==> db.items[i].seatId == t.seatId
    ensures var u := MarkAsUsed(Initial(), db, Some(t), false, false);
            forall i :: 0 <= i < |u.db.orders| && u.db.orders[i].id == t.orderId ==> u.db.orders[i].status == "completed"
  {
    var db1 := db.(seats := SetUsed(db.seats, t.seatId));
    assert AllUsed(db1, t.orderId);
  }

  /** With two seats in one order, using one of them leaves the order partially used. */
  lemma FirstOfTwoIsPartial(db: Db, t: Ticket, other: SeatId)
    requires t.seatId != "" && t.seatId in db.seats
    requires other != t.seatId && other in db.seats && db.seats[other].status == Sold
    requires exists i :: 0 <= i < |db.items| && db.items[i].orderId == t.orderId && db.items[i].seatId == other
    ensures var u := MarkAsUsed(Initial(), db, Some(t), false, false);
            forall i :: 0 <= i < |u.db.orders| && u.db.orders[i].id == t.orderId ==> u.db.orders[i].status == "partially_used"
  {
    var db1 := db.(seats := SetUsed(db.seats, t.seatId));
    var k :| 0 <= k < |db.items| && db.items[k].orderId == t.orderId && db.items[k].seatId == other;
    assert db1.seats[db1.items[k].seatId].status != Used;
    assert !AllUsed(db1, t.orderId);
  }
}

=== FILE: reservation_timer.dfy ===
/** The hold countdown shown above the cart: every second it prunes expired items
    and computes the time left until the earliest recorded expiry. */
module ReservationTimer {
  import opened Common
  import opened Cart

  /** Time left in ms; `Unbounded` is what `Math.min()` of no values (Infinity) yields. */
  datatype TimeLeft = Millis(ms: nat) | Unbounded

  /** What the banner renders. `Endless` is the non-urgent banner for an infinite time left. */
  datatype Banner = Hidden | Clock(minutes: nat, seconds: nat, urgent: bool) | Endless

  const UrgentBelowMillis: int := 2 * 60 * 1000

  /** Every finite non-empty set of integers has a least element. */
  lemma {:induction false} MinExists(s: set<int>)
    requires s != {}
    ensures exists m :: m in s && forall x :: x in s ==> m <= x
    decreases |s|
  {
    assert (forall z :: z !in s) ==> s == {};
    var y :| y in s;
    if s != {y} {
      MinExists(s - {y});
      var m :| m in s - {y} && forall x :: x in s - {y} ==> m <= x;
      var least := if y < m then y else m;
      forall x | x in s
        ensures least <= x
      {
        if x != y {
          assert x in s - {y};
        }
      }
      assert least in s;
    } else {
      assert forall x :: x in s ==> y <= x;
    }
  }

  function SetMin(s: set<int>): (m: int)
    requires s != {}
    ensures m in s
    ensures forall x :: x in s ==> m <= x
  {
    MinExists(s);
    var m :| m in s && forall x :: x in s ==> m <= x;
    m
  }

  /** Remaining time = max(0, earliest recorded expiry - now); zero for an empty cart.
      The minimum is taken over every recorded expiry, not only those of items. */
  function Remaining(c: CartState, now: int): (t: TimeLeft)
    ensures |c.items| == 0 ==> t == Millis(0)
    ensures t.Unbounded? <==> |c.items| > 0 && c.reserved == map[]
    ensures |c.items| > 0 ==> forall k :: k in c.reserved ==> t.ms <= Max0(c.reserved[k] - now)
    ensures |c.items| > 0 && c.reserved != map[] ==>
              exists k :: k in c.reserved && t.ms == Max0(c.reserved[k] - now)
  {
    if |c.items| == 0 then Millis(0)
    else if c.reserved == map[] then Unbounded
    else
      var earliest := SetMin(c.reserved.Values);
      assert forall k :: k in c.reserved ==> c.reserved[k] in c.reserved.Values;
      Millis(Max0(earliest - now))
  }

  function Max0(x: int): (r: nat)
    ensures r >= x
    ensures r == 0 || r == x
  {
    if x > 0 then x else 0
  }

  /** The banner for the cart as rendered and the last computed time left. */
  function Show(items: seq<CartItem>, left: TimeLeft): (b: Banner)
    ensures b.Hidden? <==> |items| == 0 || left == Millis(0)
    ensures b.Clock? ==>
              && left.Millis?
              && b.seconds < 60
              && b.minutes * 60000 + b.seconds * 1000 <= left.ms < b.minutes * 60000 + b.seconds * 1000 + 1000
    ensures b.Clock? ==> (b.urgent <==> left.ms < 120000)
    ensures b.Endless? <==> |items| > 0 && left.Unbounded?
  {
    if |items| == 0 || left == Millis(0) then Hidden
    else
      match left
      case Unbounded => Endless
      case Millis(t) => Clock(t / 60000, (t % 60000) / 1000, t < UrgentBelowMillis)
  }

  /** The state the timer leaves behind after one tick. */
  datatype Tick = Tick(cart: CartState, left: TimeLeft)

  /** One interval tick: the store prunes expired items, but the time left is
      computed from the cart as it was before the pruning. */
  function OnTick(c: CartState, now: int): (k: Tick)
    ensures k.cart == CheckExpiry(c, now)
    ensures k.left == Remaining(c, now)
  {
    Tick(CheckExpiry(c, now), Remaining(c, now))
  }

  /** The stale read has a visible effect: when some recorded hold has already
      ended but live items remain after pruning, the tick computes zero time left
      from the unpruned cart, so the banner disappears while the cart still holds
      seats. */
  lemma StaleTickHidesBanner(c: CartState, now: int)
    requires |OnTick(c, now).cart.items| > 0
    requires exists k :: k in c.reserved && c.reserved[k] <= now
    ensures |c.items| > 0
    ensures OnTick(c, now).left == Millis(0)
    ensures Show(OnTick(c, now).cart.items, OnTick(c, now).left) == Hidden
  {
    var it := OnTick(c, now).cart.items[0];
    assert it in OnTick(c, now).cart.items;
    var k :| k in c.reserved && c.reserved[k] <= now;
    assert Max0(c.reserved[k] - now) == 0;
  }

  /** The urgency flag is exact at the two-minute boundary. */
  lemma UrgencyBoundary(items: seq<CartItem>)
    requires |items| > 0
    ensures Show(items, Millis(119999)).urgent
    ensures !Show(items, Millis(120000)).urgent
  {
  }

  /** Once the cart has been pruned at `now`, a non-empty cart shows a positive time left. */
  lemma PrunedCartShowsTime(c: CartState, now: int)
    requires |CheckExpiry(c, now).items| > 0
    ensures Remaining(CheckExpiry(c, now), now).Millis?
    ensures Remaining(CheckExpiry(c, now), now).ms > 0
  {
    var r := CheckExpiry(c, now);
    var it := r.items[0];
    assert it in r.items;
    assert it.seat.id in r.reserved;
    var earliest := SetMin(r.reserved.Values);
    assert exists k :: k in r.reserved && r.reserved[k] == earliest;
  }

  /** A cart with a live item, one second before the earliest expiry, is shown as urgent with 0:01 left. */
  lemma LastSecondIsUrgent(c: CartState, now: int)
    requires |c.items| > 0
    requires c.reserved != map[]
    requires forall k :: k in c.reserved ==> c.reserved[k] >= now + 1000
    requires exists k :: k in c.reserved && c.reserved[k] == now + 1000
    ensures Show(c.items, Remaining(c, now)) == Clock(0, 1, true)
  {
  }
}

=== FILE: reserve_route.dfy ===
/** The seat-hold HTTP handlers: POST holds seats for ten minutes, DELETE releases them. */
module ReserveRoute {
  import opened Common
  import opened SeatStore

  /** The `seatIds` field of the request body as the handler sees it. */
  datatype SeatIdsField =
    | Unreadable          // the body is not JSON, so reading it throws
    | Falsy               // missing, null, false, 0 or the empty string
    | NotAnArray          // present and truthy but not an array
    | Ids(ids: seq<SeatId>)

  /** HTTP status, the `success` flag of the JSON answer, and its `reserved_until`. */
  datatype Response = Response(status: int, success: bool, reservedUntil: Option<int>)

  datatype Handled = Handled(table: Table, response: Response)

  const HoldMillis: int := 10 * 60 * 1000

  function BadRequest(): Response { Response(400, false, None) }
  function ServerError(): Response { Response(500, false, None) }

  /** POST: hold every listed available seat until now + 10 minutes. */
  function Post(t: Table, body: SeatIdsField, now: int, storeFails: bool): (h: Handled)
    ensures h.response.status == 400 <==> body.Falsy? || body.NotAnArray?
    ensures h.response.success <==> body.Ids? && !storeFails
    ensures h.response.success <==> h.response.status == 200
    ensures !h.response.success ==> h.table == t && h.response.reservedUntil == None
    ensures h.response.success ==>
              h.table == MarkReserved(t, body.ids, now + 600000) &&
              h.response.reservedUntil == Some(now + 600000)
  {
    match body
    case Unreadable => Handled(t, ServerError())
    case Falsy => Handled(t, BadRequest())
    case NotAnArray => Handled(t, BadRequest())
    case Ids(ids) =>
      var until := now + HoldMillis;
      if storeFails then Handled(t, ServerError())
      else Handled(MarkReserved(t, ids, until), Response(200, true, Some(until)))
  }

  /** DELETE: release every listed reserved seat. */
  function Delete(t: Table, body: SeatIdsField, storeFails: bool): (h: Handled)
    ensures h.response.status == 400 <==> body.Falsy? || body.NotAnArray?
    ensures h.response.success <==> body.Ids? && !storeFails
    ensures h.response.success <==> h.response.status == 200
    ensures !h.response.success ==> h.table == t
    ensures h.response.success ==> h.table == MarkReleased(t, body.ids)
    ensures h.response.reservedUntil == None
  {
    match body
    case Unreadable => Handled(t, ServerError())
    case Falsy => Handled(t, BadRequest())
    case NotAnArray => Handled(t, BadRequest())
    case Ids(ids) =>
      if storeFails then Handled(t, ServerError())
      else Handled(MarkReleased(t, ids), Response(200, true, None))
  }

  /** The expiry the POST answer reports is the one written into every seat it changed. */
  lemma PostEchoesWrittenExpiry(t: Table, body: SeatIdsField, now: int)
    requires body.Ids?
    ensures var h := Post(t, body, now, false);
            forall id :: id in t && h.table[id] != t[id] ==> h.table[id].reservedUntil == h.response.reservedUntil
  {
  }

  /** POST reports success even when every listed seat was already taken and nothing changed. */
  lemma PostSucceedsWithoutChange(t: Table, ids: seq<SeatId>, now: int)
    requires forall id :: id in t && id in ids ==> t[id].status != Available
    ensures Post(t, Ids(ids), now, false).response.success
    ensures Post(t, Ids(ids), now, false).table == t
  {
    var h := Post(t, Ids(ids), now, false);
    forall id | id in t
      ensures h.table[id] == t[id]
    {
    }
  }

  /** A second DELETE with the same ids is a successful no-op. */
  lemma DeleteTwiceIsNoOp(t: Table, ids: seq<SeatId>)
    ensures var once := Delete(t, Ids(ids), false).table;
            Delete(once, Ids(ids), false).table == once
  {
    ReleaseIdempotent(t, ids);
  }

  /** DELETE after POST on the same seats gives back the table, when none was held before. */
  lemma DeleteUndoesPost(t: Table, ids: seq<SeatId>, now: int)
    requires HoldConsistent(t)
    requires forall id :: id in t && id in ids ==> t[id].status != Reserved
    ensures Delete(Post(t, Ids(ids), now, false).table, Ids(ids), false).table == t
  {
    ReleaseUndoesReserve(t, ids, now + HoldMillis);
  }
}

=== FILE: seat_layout.dfy ===
/** The seat map of one zone: row letters, the per-letter seat counts behind the
    row labels, seat colours and the click guard. Row letters are UTF-16 code units,
    as in JavaScript strings. */
module SeatLayout {
  import opened Common
  import opened Cart
  import SeqUtil
  import SeatSelection

  /** A UTF-16 code unit: what `String.fromCharCode` produces and `charCodeAt` reads. */
  type CodeUnit = x: int | 0 <= x < 0x1_0000

  /** A JavaScript string, as its code units. */
  type JsString = seq<CodeUnit>

  const LetterBase: int := 64

  /** `String.fromCharCode(64 + row)`: the argument is reduced modulo 2^16. */
  function RowLetter(row: int): (u: CodeUnit)
    ensures 1 <= row <= 26 ==> u == 64 + row
    ensures (u - (64 + row)) % 0x1_0000 == 0
  {
    (LetterBase + row) % 0x1_0000
  }

  /** `name.charCodeAt(0) - 64`; on an empty name the code unit is NaN and so is the
      row number, which the store receives as null. */
  function RowNumberOf(name: JsString): (row: Option<int>)
    ensures row.None? <==> name == []
    ensures row.Some? ==> -64 <= row.value < 0x1_0000 - 64
  {
    if name == [] then None else Some(name[0] - LetterBase)
  }

  /** Within the range where no wrap-around happens, the letter of a row gives back the row. */
  lemma RowLetterRoundTrip(row: int)
    requires -64 <= row < 0x1_0000 - 64
    ensures RowNumberOf([RowLetter(row)]) == Some(row)
  {
  }

  /** Any name's row number is printed back as the name's first letter. */
  lemma RowNumberRoundTrip(name: JsString)
    requires name != []
    ensures RowLetter(RowNumberOf(name).value) == name[0]
  {
  }

  /** 'A' is row 1 and 'K' is row 11. */
  lemma LettersOfTheVenue()
    ensures RowNumberOf([65]) == Some(1)
    ensures RowNumberOf([75]) == Some(11)
    ensures RowLetter(1) == 65 && RowLetter(26) == 90
  {
  }

  // ---------------------------------------------------------------------------
  // Row labels: the seats are folded into a record letter -> count, in order of first occurrence

  datatype LabelCount = LabelCount(letter: CodeUnit, count: nat)

  function HasLetter(u: CodeUnit): Seat -> bool
  {
    (s: Seat) => RowLetter(s.rowNumber) == u
  }

  /** Does the record have an entry for letter `v`? */
  predicate Present(t: seq<LabelCount>, v: CodeUnit)
  {
    exists i :: 0 <= i < |t| && t[i].letter == v
  }

  predicate DistinctLetters(t: seq<LabelCount>)
  {
    forall i, j :: 0 <= i < j < |t| ==> t[i].letter != t[j].letter
  }

  function CountSum(t: seq<LabelCount>): nat
  {
    if t == [] then 0 else t[0].count + CountSum(t[1..])
  }

  /** The count recorded for letter `v`, summed over its entries. */
  function CountOf(t: seq<LabelCount>, v: CodeUnit): nat
  {
    if t == [] then 0 else (if t[0].letter == v then t[0].count else 0) + CountOf(t[1..], v)
  }

  /** One reduction step: bump the letter's count, or append it with count 1.
      Entries keep their positions, and a new letter goes to the end. */
  function Bump(t: seq<LabelCount>, u: CodeUnit): (r: seq<LabelCount>)
    ensures Present(t, u) ==> |r| == |t|
    ensures !Present(t, u) ==> r == t + [LabelCount(u, 1)]
    ensures forall i :: 0 <= i < |t| ==> r[i].letter == t[i].letter
  {
    if t == [] then [LabelCount(u, 1)]
    else if t[0].letter == u then [LabelCount(u, t[0].count + 1)] + t[1..]
    else
      assert Present(t, u) ==> Present(t[1..], u) by {
        if Present(t, u) {
          var j :| 0 <= j < |t| && t[j].letter == u;
          assert t[1..][j - 1].letter == u;
        }
      }
      assert Present(t[1..], u) ==> Present(t, u) by {
        if Present(t[1..], u) {
          var j :| 0 <= j < |t[1..]| && t[1..][j].letter == u;
          assert t[j + 1].letter == u;
        }
      }
      [t[0]] + Bump(t[1..], u)
  }

  /** The row record of the seat map, folded over the seats in order. */
  function RowTally(seats: seq<Seat>): seq<LabelCount>
  {
    if seats == [] then []
    else Bump(RowTally(seats[..|seats| - 1]), RowLetter(seats[|seats| - 1].rowNumber))
  }

  lemma {:induction false} BumpCountSum(t: seq<LabelCount>, u: CodeUnit)
    ensures CountSum(Bump(t, u)) == CountSum(t) + 1
  {
    if t != [] && t[0].letter != u {
      BumpCountSum(t[1..], u);
      assert ([t[0]] + Bump(t[1..], u))[1..] == Bump(t[1..], u);
    }
  }

  lemma {:induction false} BumpCountOf(t: seq<LabelCount>, u: CodeUnit, v: CodeUnit)
    ensures CountOf(Bump(t, u), v) == CountOf(t, v) + (if v == u then 1 else 0)
  {
    if t != [] && t[0].letter != u {
      BumpCountOf(t[1..], u, v);
      assert ([t[0]] + Bump(t[1..], u))[1..] == Bump(t[1..], u);
    }
  }

  lemma BumpKeepsDistinct(t: seq<LabelCount>, u: CodeUnit)
    requires DistinctLetters(t)
    ensures DistinctLetters(Bump(t, u))
    ensures forall v :: Present(Bump(t, u), v) <==> v == u || Present(t, v)
  {
    var r := Bump(t, u);
    if Present(t, u) {
      forall v | Present(r, v)
        ensures Present(t, v)
      {
        var i :| 0 <= i < |r| && r[i].letter == v;
        assert t[i].letter == v;
      }
      forall v | Present(t, v)
        ensures Present(r, v)
      {
        var i :| 0 <= i < |t| && t[i].letter == v;
        assert r[i].letter == v;
      }
    } else {
      forall v | Present(r, v)
        ensures v == u || Present(t, v)
      {
        var i :| 0 <= i < |r| && r[i].letter == v;
        if i < |t| {
          assert t[i].letter == v;
        }
      }
      forall v | Present(t, v)
        ensures Present(r, v)
      {
        var i :| 0 <= i < |t| && t[i].letter == v;
        assert r[i].letter == v;
      }
      assert r[|t|].letter == u;
    }
  }

  /** The letter of the last seat and the seats before it determine the record. */
  lemma TallyOfAppend(init: seq<Seat>, last: Seat)
    ensures RowTally(init + [last]) == Bump(RowTally(init), RowLetter(last.rowNumber))
  {
    var seats := init + [last];
    assert seats[..|seats| - 1] == init;
    assert seats[|seats| - 1] == last;
  }

  lemma FilterOfAppend(init: seq<Seat>, last: Seat, u: CodeUnit)
    ensures |SeqUtil.Filter(init + [last], HasLetter(u))| ==
            |SeqUtil.Filter(init, HasLetter(u))| + (if RowLetter(last.rowNumber) == u then 1 else 0)
  {
    SeqUtil.FilterAppend(init, [last], HasLetter(u));
    assert [last][1..] == [];
  }

  /** The row record lists each letter once, exactly the letters of the seats' rows,
      with as many seats under each letter as bear it; the counts add up to the seat count. */
  lemma {:induction false} TallyFacts(seats: seq<Seat>)
    ensures DistinctLetters(RowTally(seats))
    ensures CountSum(RowTally(seats)) == |seats|
    ensures forall v :: CountOf(RowTally(seats), v) == |SeqUtil.Filter(seats, HasLetter(v))|
    ensures forall v :: Present(RowTally(seats), v) <==> exists s :: s in seats && RowLetter(s.rowNumber) == v
  {
    if seats != [] {
      var init := seats[..|seats| - 1];
      var last := seats[|seats| - 1];
      assert seats == init + [last];
      TallyFacts(init);
      var t := RowTally(init);
      var u := RowLetter(last.rowNumber);
      TallyOfAppend(init, last);
      BumpCountSum(t, u);
      BumpKeepsDistinct(t, u);
      forall v
        ensures CountOf(RowTally(seats), v) == |SeqUtil.Filter(seats, HasLetter(v))|
      {
        BumpCountOf(t, u, v);
        FilterOfAppend(init, last, v);
      }
      assert forall s :: s in seats <==> s in init || s == last;
    }
  }

  /** With distinct letters, an entry's count is the count recorded for its letter. */
  lemma {:induction false} EntryCount(t: seq<LabelCount>, i: int)
    requires DistinctLetters(t)
    requires 0 <= i < |t|
    ensures CountOf(t, t[i].letter) == t[i].count
  {
    if i == 0 {
      OtherLettersCountZero(t[1..], t[0].letter);
    } else {
      EntryCount(t[1..], i - 1);
    }
  }

  lemma {:induction false} OtherLettersCountZero(t: seq<LabelCount>, v: CodeUnit)
    requires forall j :: 0 <= j < |t| ==> t[j].letter != v
    ensures CountOf(t, v) == 0
  {
    if t != [] {
      OtherLettersCountZero(t[1..], v);
    }
  }

  /** Each entry of the row record counts exactly the seats whose row carries its letter. */
  lemma TallyCountsSeats(seats: seq<Seat>, i: int)
    requires 0 <= i < |RowTally(seats)|
    ensures RowTally(seats)[i].count == |SeqUtil.Filter(seats, HasLetter(RowTally(seats)[i].letter))|
  {
    TallyFacts(seats);
    EntryCount(RowTally(seats), i);
  }

  // ---------------------------------------------------------------------------
  // Colours and clicks

  datatype SeatColor = SelectedColor | SoldColor | ReservedColor | AvailableColor

  /** Selection wins over status; sold wins over reserved; everything else, a used
      seat included, is drawn as available. */
  function ColorOf(seat: Seat, selected: bool): (c: SeatColor)
    ensures c == SelectedColor <==> selected
    ensures c == SoldColor <==> !selected && seat.status == Sold
    ensures c == ReservedColor <==> !selected && seat.status == Reserved
    ensures c == AvailableColor <==> !selected && (seat.status == Available || seat.status == Used)
  {
    if selected then SelectedColor
    else if seat.status == Sold then SoldColor
    else if seat.status == Reserved then ReservedColor
    else
      assert seat.status == Available || seat.status == Used;
      AvailableColor
  }

  /** The map and the list view colour a seat alike, save a used seat that is not
      selected: the list shows it gray, the map as available. */
  lemma ViewsAgreeSaveUsed(seat: Seat, items: seq<CartItem>)
    ensures var selected := SeatSelection.SelectedIds(items);
            var onMap := ColorOf(seat, seat.id in selected);
            var inList := SeatSelection.ButtonColorOf(seat, selected);
            (onMap == SelectedColor <==> inList == SeatSelection.Blue) &&
            (onMap == SoldColor <==> inList == SeatSelection.Red) &&
            (onMap == ReservedColor <==> inList == SeatSelection.Yellow) &&
            (onMap == AvailableColor <==> inList == SeatSelection.Green || inList == SeatSelection.Gray)
  {
  }

  /** A click on the map with the seats page's handler as the callback. The map
      passes the click on only for an available seat. */
  function MapClick(c: CartState, zones: seq<Zone>, seat: Seat, now: int): (r: CartState)
    ensures seat.status != Available ==> r == c
  {
    if seat.status == Available then SeatSelection.SelectSeat(c, zones, seat, now) else c
  }

  /** The map's guard and the handler's own guard coincide, so the map adds no filtering of its own. */
  lemma MapGuardMatchesHandler(c: CartState, zones: seq<Zone>, seat: Seat, now: int)
    ensures MapClick(c, zones, seat, now) == SeatSelection.SelectSeat(c, zones, seat, now)
  {
  }

  /** A seat drawn with the selection colour on the seats page is exactly a seat in the cart. */
  lemma SelectedColorMeansInCart(items: seq<CartItem>, seat: Seat)
    ensures ColorOf(seat, seat.id in SeatSelection.SelectedIds(items)) == SelectedColor <==> seat.id in IdsOf(items)
  {
  }
}

=== FILE: seat_selection.dfy ===
/** Choosing seats on the seat pages: the click toggle that feeds the cart, the
    zone filter of the seats page, and the row-by-row grid of the seat selector. */
module SeatSelection {
  import opened Common
  import opened Cart
  import SeqUtil

  /** The highlighted seat ids: the set of seat ids in the cart. */
  function SelectedIds(items: seq<CartItem>): (ids: set<SeatId>)
    ensures forall id :: id in ids <==> id in IdsOf(items)
  {
    set i | 0 <= i < |items| :: items[i].seat.id
  }

  /** The selector's click handler. A seat that is not available is ignored;
      otherwise the click toggles the seat in the cart, adding it at the zone price. */
  function ClickSeat(c: CartState, zone: Zone, seat: Seat, now: int): (r: CartState)
    ensures seat.status != Available ==> r == c
    ensures seat.status == Available ==> (InCart(r, seat.id) <==> !InCart(c, seat.id))
    ensures seat.status == Available && !InCart(c, seat.id) ==>
              r.items == c.items + [CartItem(seat, zone, zone.price)]
    ensures seat.status == Available && InCart(c, seat.id) ==>
              SeqUtil.IsSubsequence(r.items, c.items) &&
              forall it :: it in c.items && it.seat.id != seat.id ==> it in r.items
  {
    if seat.status != Available then c
    else if seat.id in SelectedIds(c.items) then RemoveItem(c, seat.id)
    else AddItem(c, CartItem(seat, zone, zone.price), now)
  }

  datatype ButtonColor = Blue | Green | Yellow | Red | Gray

  /** The selector's button colour: a selected seat is blue whatever its status;
      otherwise green, yellow and red for available, reserved and sold, and gray for
      any other status. */
  function ButtonColorOf(seat: Seat, selected: set<SeatId>): (b: ButtonColor)
    ensures b == Blue <==> seat.id in selected
    ensures b == Green <==> seat.id !in selected && seat.status == Available
    ensures b == Yellow <==> seat.id !in selected && seat.status == Reserved
    ensures b == Red <==> seat.id !in selected && seat.status == Sold
    ensures b == Gray <==> seat.id !in selected && seat.status == Used
  {
    if seat.id in selected then Blue
    else
      match seat.status
      case Available => Green
      case Reserved => Yellow
      case Sold => Red
      case Used => Gray
  }

  /** The first loaded zone with the given id (`Array.find`). */
  function FindZone(zones: seq<Zone>, id: ZoneId): (z: Option<Zone>)
    ensures z.None? <==> forall i :: 0 <= i < |zones| ==> zones[i].id != id
    ensures z.Some? ==>
              exists i :: 0 <= i < |zones| && zones[i] == z.value && z.value.id == id &&
                          forall j :: 0 <= j < i ==> zones[j].id != id
  {
    if zones == [] then None
    else if zones[0].id == id then Some(zones[0])
    else
      var rest := FindZone(zones[1..], id);
      if rest.Some? then
        var i :| 0 <= i < |zones[1..]| && zones[1..][i] == rest.value && rest.value.id == id &&
                 forall j :: 0 <= j < i ==> zones[1..][j].id != id;
        assert zones[i + 1] == rest.value;
        rest
      else rest
  }

  /** The seats page's select handler: like the selector's click, but the zone is
      looked up among the loaded zones, and a seat whose zone is missing is ignored. */
  function SelectSeat(c: CartState, zones: seq<Zone>, seat: Seat, now: int): (r: CartState)
    ensures seat.status != Available ==> r == c
    ensures (forall i :: 0 <= i < |zones| ==> zones[i].id != seat.zoneId) ==> r == c
    ensures seat.status == Available && FindZone(zones, seat.zoneId).Some? ==>
              (InCart(r, seat.id) <==> !InCart(c, seat.id))
    ensures seat.status == Available && !InCart(c, seat.id) && r != c ==>
              exists z :: z in zones && z.id == seat.zoneId && r.items == c.items + [CartItem(seat, z, z.price)]
  {
    if seat.status != Available then c
    else
      match FindZone(zones, seat.zoneId)
      case None => c
      case Some(zone) => ClickSeat(c, zone, seat, now)
  }

  function InZone(zoneId: ZoneId): Seat -> bool
  {
    (s: Seat) => s.zoneId == zoneId
  }

  /** The seats shown for the selected zone: exactly those of that zone, in load order. */
  function ZoneSeats(all: seq<Seat>, zoneId: ZoneId): (shown: seq<Seat>)
    ensures forall s :: s in shown <==> s in all && s.zoneId == zoneId
    ensures SeqUtil.IsSubsequence(shown, all)
  {
    SeqUtil.Filter(all, InZone(zoneId))
  }

  // ---------------------------------------------------------------------------
  // The seat grid: one line per row number, ascending, seats ascending within a row

  predicate StrictlyIncreasing(ks: seq<int>)
  {
    forall i, j :: 0 <= i < j < |ks| ==> ks[i] < ks[j]
  }

  /** Adds one key to an ascending list of distinct keys. */
  function InsertKey(k: int, ks: seq<int>): (r: seq<int>)
    requires StrictlyIncreasing(ks)
    ensures StrictlyIncreasing(r)
    ensures forall v :: v in r <==> v == k || v in ks
  {
    if ks == [] then [k]
    else if k < ks[0] then [k] + ks
    else if k == ks[0] then ks
    else
      var rest := InsertKey(k, ks[1..]);
      assert forall v :: v in rest ==> ks[0] < v;
      var r := [ks[0]] + rest;
      forall i, j | 0 <= i < j < |r|
        ensures r[i] < r[j]
      {
        if i == 0 {
          assert r[j] == rest[j - 1] && r[j] in rest;
        } else {
          assert r[i] == rest[i - 1] && r[j] == rest[j - 1];
        }
      }
      r
  }

  /** The row numbers of the grid: the keys of the row record, sorted numerically. */
  function RowNumbers(seats: seq<Seat>): (rows: seq<int>)
    ensures StrictlyIncreasing(rows)
    ensures forall v :: v in rows <==> exists s :: s in seats && s.rowNumber == v
  {
    if seats == [] then []
    else
      var rest := RowNumbers(seats[1..]);
      assert forall s :: s in seats <==> s == seats[0] || s in seats[1..];
      InsertKey(seats[0].rowNumber, rest)
  }

  predicate SortedBySeat(s: seq<Seat>)
  {
    forall i, j :: 0 <= i < j < |s| ==> s[i].seatNumber <= s[j].seatNumber
  }

  /** Inserts `x` ahead of the first seat whose number is not smaller, so that
      seats with equal numbers keep their relative order. */
  function InsertBySeat(x: Seat, s: seq<Seat>): (r: seq<Seat>)
    requires SortedBySeat(s)
    ensures SortedBySeat(r)
    ensures multiset(r) == multiset(s) + multiset{x}
  {
    if s == [] || x.seatNumber <= s[0].seatNumber then [x] + s
    else
      var rest := InsertBySeat(x, s[1..]);
      assert s == [s[0]] + s[1..];
      forall y | y in rest
        ensures s[0].seatNumber <= y.seatNumber
      {
        assert y in multiset(rest);
        if y != x {
          assert y in multiset(s[1..]);
        }
      }
      [s[0]] + rest
  }

  /** The stable sort by seat number applied to each row. */
  function SortBySeat(s: seq<Seat>): (r: seq<Seat>)
    ensures SortedBySeat(r)
    ensures multiset(r) == multiset(s)
  {
    if s == [] then []
    else
      assert s == [s[0]] + s[1..];
      InsertBySeat(s[0], SortBySeat(s[1..]))
  }

  function InRow(row: int): Seat -> bool
  {
    (s: Seat) => s.rowNumber == row
  }

  function HasSeatNumber(n: int): Seat -> bool
  {
    (s: Seat) => s.seatNumber == n
  }

  /** One line of the grid. */
  datatype RowGroup = RowGroup(row: int, seats: seq<Seat>)

  /** The line for each listed row: the row's seats in load order, then sorted. */
  function Groups(seats: seq<Seat>, rows: seq<int>): (gs: seq<RowGroup>)
    ensures |gs| == |rows|
    ensures forall i :: 0 <= i < |gs| ==>
              gs[i].row == rows[i] &&
              SortedBySeat(gs[i].seats) &&
              multiset(gs[i].seats) == multiset(SeqUtil.Filter(seats, InRow(rows[i])))
  {
    if rows == [] then []
    else [RowGroup(rows[0], SortBySeat(SeqUtil.Filter(seats, InRow(rows[0]))))] + Groups(seats, rows[1..])
  }

  /** A line holds exactly the seats of its row. */
  lemma GroupsHoldTheirRows(seats: seq<Seat>, rows: seq<int>)
    ensures forall i, s :: 0 <= i < |rows| ==>
              (s in Groups(seats, rows)[i].seats <==> s in seats && s.rowNumber == rows[i])
  {
    var gs := Groups(seats, rows);
    forall i, s | 0 <= i < |rows|
      ensures s in gs[i].seats <==> s in seats && s.rowNumber == rows[i]
    {
      var f := SeqUtil.Filter(seats, InRow(rows[i]));
      assert s in gs[i].seats <==> s in multiset(gs[i].seats);
      assert s in f <==> s in multiset(f);
    }
  }

  /** The whole grid of the seat selector. */
  function Grid(seats: seq<Seat>): (gs: seq<RowGroup>)
    ensures forall i, j :: 0 <= i < j < |gs| ==> gs[i].row < gs[j].row
    ensures forall i :: 0 <= i < |gs| ==> SortedBySeat(gs[i].seats)
    ensures forall i, s :: 0 <= i < |gs| ==> (s in gs[i].seats <==> s in seats && s.rowNumber == gs[i].row)
    ensures forall s :: s in seats ==> exists i :: 0 <= i < |gs| && s in gs[i].seats
  {
    var rows := RowNumbers(seats);
    GroupsHoldTheirRows(seats, rows);
    var gs := Groups(seats, rows);
    forall s | s in seats
      ensures exists i :: 0 <= i < |gs| && s in gs[i].seats
    {
      assert s.rowNumber in rows;
      var i :| 0 <= i < |rows| && rows[i] == s.rowNumber;
      assert s in gs[i].seats;
    }
    gs
  }

  // ---------------------------------------------------------------------------
  // Properties

  /** Two clicks on an available seat that is not in the cart give back the item list. */
  lemma TwoClicksRestore(c: CartState, zone: Zone, seat: Seat, now: int, later: int)
    requires seat.status == Available
    requires !InCart(c, seat.id)
    ensures ClickSeat(ClickSeat(c, zone, seat, now), zone, seat, later).items == c.items
  {
    RemoveUndoesAdd(c, CartItem(seat, zone, zone.price), now);
  }

  /** With the zone the seats page finds, its handler and the selector's click agree. */
  lemma SelectAgreesWithClick(c: CartState, zones: seq<Zone>, seat: Seat, now: int)
    requires FindZone(zones, seat.zoneId).Some?
    ensures SelectSeat(c, zones, seat, now) == ClickSeat(c, FindZone(zones, seat.zoneId).value, seat, now)
  {
  }

  /** Showing a zone's seats twice in a row shows the same seats. */
  lemma ZoneSeatsIdempotent(all: seq<Seat>, zoneId: ZoneId)
    ensures ZoneSeats(ZoneSeats(all, zoneId), zoneId) == ZoneSeats(all, zoneId)
  {
    SeqUtil.FilterKeepsEvery(ZoneSeats(all, zoneId), InZone(zoneId));
  }

  /** Inserting one seat does not disturb the order among the seats with any given number. */
  lemma {:induction false} InsertKeepsTies(x: Seat, s: seq<Seat>, n: int)
    requires SortedBySeat(s)
    ensures SeqUtil.Filter(InsertBySeat(x, s), HasSeatNumber(n)) ==
            (if x.seatNumber == n then [x] else []) + SeqUtil.Filter(s, HasSeatNumber(n))
  {
    if s == [] || x.seatNumber <= s[0].seatNumber {
      assert ([x] + s)[1..] == s;
    } else {
      var rest := InsertBySeat(x, s[1..]);
      assert ([s[0]] + rest)[1..] == rest;
      InsertKeepsTies(x, s[1..], n);
    }
  }

  /** The sort is stable: seats with equal numbers stay in load order. */
  lemma {:induction false} SortIsStable(s: seq<Seat>, n: int)
    ensures SeqUtil.Filter(SortBySeat(s), HasSeatNumber(n)) == SeqUtil.Filter(s, HasSeatNumber(n))
  {
    if s != [] {
      SortIsStable(s[1..], n);
      InsertKeepsTies(s[0], SortBySeat(s[1..]), n);
    }
  }

  /** Sum of the group sizes. */
  function GridSize(gs: seq<RowGroup>): nat
  {
    if gs == [] then 0 else |gs[0].seats| + GridSize(gs[1..])
  }

  /** Sum of the sizes of the row filters over the listed rows. */
  function RowCounts(seats: seq<Seat>, rows: seq<int>): nat
  {
    if rows == [] then 0 else |SeqUtil.Filter(seats, InRow(rows[0]))| + RowCounts(seats, rows[1..])
  }

  /** How often `v` occurs in `rows`. */
  function Occurrences(rows: seq<int>, v: int): nat
  {
    if rows == [] then 0 else (if rows[0] == v then 1 else 0) + Occurrences(rows[1..], v)
  }

  lemma {:induction false} GroupsSize(seats: seq<Seat>, rows: seq<int>)
    ensures GridSize(Groups(seats, rows)) == RowCounts(seats, rows)
  {
    if rows != [] {
      var f := SeqUtil.Filter(seats, InRow(rows[0]));
      assert |SortBySeat(f)| == |multiset(SortBySeat(f))| == |multiset(f)| == |f|;
      assert Groups(seats, rows)[1..] == Groups(seats, rows[1..]);
      GroupsSize(seats, rows[1..]);
    }
  }

  lemma {:induction false} CountsOfEmpty(rows: seq<int>)
    ensures RowCounts([], rows) == 0
  {
    if rows != [] {
      CountsOfEmpty(rows[1..]);
    }
  }

  /** Adding a seat in front raises the row counts by the number of listed rows it belongs to. */
  lemma {:induction false} CountsOfCons(x: Seat, rest: seq<Seat>, rows: seq<int>)
    ensures RowCounts([x] + rest, rows) == RowCounts(rest, rows) + Occurrences(rows, x.rowNumber)
  {
    if rows != [] {
      assert ([x] + rest)[1..] == rest;
      CountsOfCons(x, rest, rows[1..]);
    }
  }

  lemma {:induction false} OccursOnce(rows: seq<int>, v: int)
    requires StrictlyIncreasing(rows)
    ensures Occurrences(rows, v) == if v in rows then 1 else 0
  {
    if rows != [] {
      OccursOnce(rows[1..], v);
      if rows[0] == v {
        assert v !in rows[1..];
      }
    }
  }

  /** Over distinct rows that cover every seat, the row counts add up to the number of seats. */
  lemma {:induction false} CountsCoverAll(seats: seq<Seat>, rows: seq<int>)
    requires StrictlyIncreasing(rows)
    requires forall s :: s in seats ==> s.rowNumber in rows
    ensures RowCounts(seats, rows) == |seats|
  {
    if seats == [] {
      CountsOfEmpty(rows);
    } else {
      assert seats == [seats[0]] + seats[1..];
      CountsOfCons(seats[0], seats[1..], rows);
      OccursOnce(rows, seats[0].rowNumber);
      CountsCoverAll(seats[1..], rows);
    }
  }

  /** Every seat of the zone appears in the grid exactly once: the lines hold as many seats as were loaded. */
  lemma GridShowsEverySeatOnce(seats: seq<Seat>)
    ensures GridSize(Grid(seats)) == |seats|
  {
    var rows := RowNumbers(seats);
    GroupsSize(seats, rows);
    CountsCoverAll(seats, rows);
  }
}

=== FILE: seat_store.dfy ===
/** The seat table and the four status-changing writes of the database service:
    reserve, release, sell (order creation) and the expiry sweep. Each write is
    one guarded UPDATE, modelled as one atomic function on the table. */
module SeatStore {
  import opened Common

  type Table = map<SeatId, Seat>

  /** The table after a service call and the boolean the call reports. */
  datatype Write = Write(table: Table, ok: bool)

  /** Store faults while creating an order, in the order the writes are issued. */
  datatype OrderFaults = OrderFaults(orderInsertFails: bool, itemsInsertFails: bool, seatUpdateFails: bool)

  /** Result of order creation: the table, whether an order row was left behind, and the reported success. */
  datatype OrderOutcome = OrderOutcome(table: Table, orderRowWritten: bool, success: bool)

  /** One line of an order: a seat and the price charged for it. */
  datatype OrderLine = OrderLine(seatId: SeatId, price: int)

  /** Two versions of one seat differ at most in status and expiry. */
  predicate SamePlace(a: Seat, b: Seat)
  {
    a.id == b.id && a.zoneId == b.zoneId && a.rowNumber == b.rowNumber && a.seatNumber == b.seatNumber
  }

  /** Reserved seats carry an expiry and available seats carry none. */
  predicate HoldConsistent(t: Table)
  {
    forall id :: id in t ==>
      (t[id].status == Reserved ==> t[id].reservedUntil.Some?) &&
      (t[id].status == Available ==> t[id].reservedUntil.None?)
  }

  /** Sold and used seats are the ones a write may not take back. */
  predicate Settled(s: Seat)
  {
    s.status == Sold || s.status == Used
  }

  predicate Expired(s: Seat, now: int)
  {
    s.status == Reserved && s.reservedUntil.Some? && s.reservedUntil.value < now
  }

  /** UPDATE seats SET status = reserved, reserved_until = until
      WHERE id IN ids AND status = available. */
  function MarkReserved(t: Table, ids: seq<SeatId>, until: int): (r: Table)
    ensures r.Keys == t.Keys
    ensures forall id :: id in t ==> (r[id] != t[id] <==> id in ids && t[id].status == Available)
    ensures forall id :: id in t && r[id] != t[id] ==>
              SamePlace(r[id], t[id]) && r[id].status == Reserved && r[id].reservedUntil == Some(until)
  {
    map id | id in t ::
      if id in ids && t[id].status == Available
      then t[id].(status := Reserved, reservedUntil := Some(until))
      else t[id]
  }

  /** UPDATE seats SET status = available, reserved_until = null
      WHERE id IN ids AND status = reserved. */
  function MarkReleased(t: Table, ids: seq<SeatId>): (r: Table)
    ensures r.Keys == t.Keys
    ensures forall id :: id in t ==> (r[id] != t[id] <==> id in ids && t[id].status == Reserved)
    ensures forall id :: id in t && r[id] != t[id] ==>
              SamePlace(r[id], t[id]) && r[id].status == Available && r[id].reservedUntil == None
  {
    map id | id in t ::
      if id in ids && t[id].status == Reserved
      then t[id].(status := Available, reservedUntil := None)
      else t[id]
  }

  /** UPDATE seats SET status = sold, reserved_until = null WHERE id IN ids:
      there is no status guard. */
  function MarkSoldCleared(t: Table, ids: seq<SeatId>): (r: Table)
    ensures r.Keys == t.Keys
    ensures forall id :: id in t && id in ids ==>
              SamePlace(r[id], t[id]) && r[id].status == Sold && r[id].reservedUntil == None
    ensures forall id :: id in t && id !in ids ==> r[id] == t[id]
  {
    map id | id in t ::
      if id in ids then t[id].(status := Sold, reservedUntil := None) else t[id]
  }

  /** UPDATE seats SET status = available, reserved_until = null
      WHERE status = reserved AND reserved_until < now.
      A null expiry never compares below `now`, so such holds are kept. */
  function SweepExpired(t: Table, now: int): (r: Table)
    ensures r.Keys == t.Keys
    ensures forall id :: id in t ==> (r[id] != t[id] <==> Expired(t[id], now))
    ensures forall id :: id in t && r[id] != t[id] ==>
              SamePlace(r[id], t[id]) && r[id].status == Available && r[id].reservedUntil == None
  {
    map id | id in t ::
      if Expired(t[id], now) then t[id].(status := Available, reservedUntil := None) else t[id]
  }

  /** `reserveSeats(ids, minutes = 10)`: holds the listed available seats until
      now + minutes. Success means only that the store reported no error: it is
      true even when no seat changed, and there is no conflict signal. */
  function ReserveSeats(t: Table, ids: seq<SeatId>, now: int, fails: bool, minutes: int := DefaultHoldMinutes): (w: Write)
    ensures w.ok <==> !fails
    ensures fails ==> w.table == t
    ensures !fails ==> w.table == MarkReserved(t, ids, now + minutes * 60000)
  {
    if fails then Write(t, false)
    else Write(MarkReserved(t, ids, HoldExpiry(now, minutes)), true)
  }

  /** `releaseSeats(ids)`: frees the listed reserved seats. */
  function ReleaseSeats(t: Table, ids: seq<SeatId>, fails: bool): (w: Write)
    ensures w.ok <==> !fails
    ensures fails ==> w.table == t
    ensures !fails ==> w.table == MarkReleased(t, ids)
  {
    if fails then Write(t, false) else Write(MarkReleased(t, ids), true)
  }

  /** `createOrder`, status effects only. The order row, the item rows and the
      seat update are three independent writes. Success is reported once the
      first two succeed, whether or not the seat update then succeeds. */
  function CreateOrder(t: Table, lines: seq<OrderLine>, faults: OrderFaults): (o: OrderOutcome)
    ensures o.success <==> !faults.orderInsertFails && !faults.itemsInsertFails
    ensures o.orderRowWritten <==> !faults.orderInsertFails
    ensures o.table.Keys == t.Keys
    ensures o.table != t ==> o.success && !faults.seatUpdateFails
    ensures o.success && !faults.seatUpdateFails ==>
              forall i :: 0 <= i < |lines| && lines[i].seatId in t ==> o.table[lines[i].seatId].status == Sold
    ensures o.success && !faults.seatUpdateFails ==> o.table == MarkSoldCleared(t, SeatIds(lines))
  {
    if faults.orderInsertFails then OrderOutcome(t, false, false)
    else if faults.itemsInsertFails then OrderOutcome(t, true, false)
    else OrderOutcome(if faults.seatUpdateFails then t else MarkSoldCleared(t, SeatIds(lines)), true, true)
  }

  /** The seat ids of the lines, in order: `items.map(i => i.seat_id)`. */
  function SeatIds(lines: seq<OrderLine>): (ids: seq<SeatId>)
    ensures |ids| == |lines|
    ensures forall i :: 0 <= i < |lines| ==> ids[i] == lines[i].seatId
  {
    seq(|lines|, i requires 0 <= i < |lines| => lines[i].seatId)
  }

  /** `cleanupExpiredReservations()`: the periodic sweep; errors are only logged. */
  function CleanupExpiredReservations(t: Table, now: int, fails: bool): (r: Table)
    ensures fails ==> r == t
    ensures !fails ==> r == SweepExpired(t, now)
  {
    if fails then t else SweepExpired(t, now)
  }

  // ---------------------------------------------------------------------------
  // Properties relating the writes

  /** Reserving the same seats again does not move their expiry: a hold cannot be extended. */
  lemma ReserveDoesNotExtend(t: Table, ids: seq<SeatId>, u1: int, u2: int)
    ensures MarkReserved(MarkReserved(t, ids, u1), ids, u2) == MarkReserved(t, ids, u1)
  {
    var once := MarkReserved(t, ids, u1);
    var twice := MarkReserved(once, ids, u2);
    forall id | id in t
      ensures twice[id] == once[id]
    {
      if id in ids && t[id].status == Available {
        assert once[id].status == Reserved;
      }
    }
  }

  /** Releasing twice is the same as releasing once. */
  lemma ReleaseIdempotent(t: Table, ids: seq<SeatId>)
    ensures MarkReleased(MarkReleased(t, ids), ids) == MarkReleased(t, ids)
  {
    var once := MarkReleased(t, ids);
    forall id | id in t
      ensures MarkReleased(once, ids)[id] == once[id]
    {
    }
  }

  /** On a consistent table where none of the listed seats is already held,
      releasing right after reserving restores the table exactly. */
  lemma ReleaseUndoesReserve(t: Table, ids: seq<SeatId>, until: int)
    requires HoldConsistent(t)
    requires forall id :: id in t && id in ids ==> t[id].status != Reserved
    ensures MarkReleased(MarkReserved(t, ids, until), ids) == t
  {
    var held := MarkReserved(t, ids, until);
    var back := MarkReleased(held, ids);
    forall id | id in t
      ensures back[id] == t[id]
    {
      if id in ids && t[id].status == Available {
        assert t[id].reservedUntil == None;
        assert held[id].status == Reserved;
      }
    }
  }

  /** Running the sweep twice at the same instant changes nothing the second time. */
  lemma SweepIdempotent(t: Table, now: int)
    ensures SweepExpired(SweepExpired(t, now), now) == SweepExpired(t, now)
  {
    var once := SweepExpired(t, now);
    forall id | id in t
      ensures SweepExpired(once, now)[id] == once[id]
    {
      assert !Expired(once[id], now);
    }
  }

  /** A hold placed until `until` survives every sweep run no later than `until`. */
  lemma HoldSurvivesEarlySweep(t: Table, ids: seq<SeatId>, until: int, now: int)
    requires now <= until
    ensures forall id :: id in t && id in ids && t[id].status == Available ==>
              SweepExpired(MarkReserved(t, ids, until), now)[id].status == Reserved
  {
  }

  /** A hold of `minutes` placed at `now` lasts exactly until its expiry: a sweep
      at any instant up to `HoldExpiry(now, minutes)` keeps it, and a sweep at any
      later instant releases it. */
  lemma {:induction false} HoldEndsAtExpiry(t: Table, ids: seq<SeatId>, now: int, minutes: int, later: int)
    ensures var held := ReserveSeats(t, ids, now, false, minutes).table;
            forall id :: id in t && id in ids && t[id].status == Available ==>
              (SweepExpired(held, later)[id].status == Reserved <==> later <= HoldExpiry(now, minutes)) &&
              (SweepExpired(held, later)[id].status == Available <==> later > HoldExpiry(now, minutes))
  {
    var held := ReserveSeats(t, ids, now, false, minutes).table;
    forall id | id in t && id in ids && t[id].status == Available
      ensures SweepExpired(held, later)[id].status == Reserved <==> later <= HoldExpiry(now, minutes)
      ensures SweepExpired(held, later)[id].status == Available <==> later > HoldExpiry(now, minutes)
    {
      assert held[id].status == Reserved && held[id].reservedUntil == Some(HoldExpiry(now, minutes));
      if later > HoldExpiry(now, minutes) {
        assert Expired(held[id], later);
      } else {
        assert !Expired(held[id], later);
      }
    }
  }

  /** Reserve, release and the sweep never change a sold or used seat. */
  lemma SettledSeatsStay(t: Table, ids: seq<SeatId>, until: int, now: int)
    ensures forall id :: id in t && Settled(t[id]) ==>
              MarkReserved(t, ids, until)[id] == t[id] &&
              MarkReleased(t, ids)[id] == t[id] &&
              SweepExpired(t, now)[id] == t[id]
  {
  }

  /** Order creation has no status guard: it turns a seat already used at the door back into sold. */
  lemma CreateOrderResellsUsedSeat(t: Table, id: SeatId)
    requires id in t && t[id].status == Used
    ensures CreateOrder(t, [OrderLine(id, 0)], OrderFaults(false, false, false)).table[id].status == Sold
  {
    assert SeatIds([OrderLine(id, 0)]) == [id];
  }

  /** The seats a successful order sells are settled: no later reserve, release
      or sweep can hand them out again. */
  lemma SoldSeatsStaySold(t: Table, lines: seq<OrderLine>, ids: seq<SeatId>, until: int, now: int)
    ensures var sold := CreateOrder(t, lines, OrderFaults(false, false, false)).table;
            forall i :: 0 <= i < |lines| && lines[i].seatId in t ==>
              var id := lines[i].seatId;
              sold[id].status == Sold &&
              MarkReserved(sold, ids, until)[id] == sold[id] &&
              MarkReleased(sold, ids)[id] == sold[id] &&
              SweepExpired(sold, now)[id] == sold[id]
  {
    var sold := CreateOrder(t, lines, OrderFaults(false, false, false)).table;
    SettledSeatsStay(sold, ids, until, now);
  }

  /** A second order for the same seats also reports success and changes no seat:
      nothing in order creation refuses seats that are already sold. */
  lemma RepeatOrderChangesNothing(t: Table, lines: seq<OrderLine>)
    ensures var once := CreateOrder(t, lines, OrderFaults(false, false, false));
            var twice := CreateOrder(once.table, lines, OrderFaults(false, false, false));
            twice.success && twice.table == once.table
  {
    var once := CreateOrder(t, lines, OrderFaults(false, false, false));
    var ids := SeatIds(lines);
    var twice := MarkSoldCleared(once.table, ids);
    forall id | id in t
      ensures twice[id] == once.table[id]
    {
    }
  }

  /** Every write keeps reserved seats with an expiry and available seats without one. */
  lemma WritesKeepHoldsConsistent(t: Table, ids: seq<SeatId>, until: int, now: int)
    requires HoldConsistent(t)
    ensures HoldConsistent(MarkReserved(t, ids, until))
    ensures HoldConsistent(MarkReleased(t, ids))
    ensures HoldConsistent(MarkSoldCleared(t, ids))
    ensures HoldConsistent(SweepExpired(t, now))
  {
  }
}

=== FILE: seq_util.dfy ===
/** Sequence helpers used by several modules: filtering, sums, subsequences. */
module SeqUtil {

  /** Keeps the elements satisfying `keep`, in their original order (JavaScript `Array.filter`). */
  function Filter<T(==,!new)>(s: seq<T>, keep: T -> bool): (r: seq<T>)
    ensures |r| <= |s|
    ensures forall x :: x in r <==> x in s && keep(x)
    ensures IsSubsequence(r, s)
  {
    if s == [] then []
    else
      var rest := Filter(s[1..], keep);
      if keep(s[0]) then [s[0]] + rest else rest
  }

  /** Filtering keeps the list when every element passes. */
  lemma {:induction false} FilterKeepsEvery<T(!new)>(s: seq<T>, keep: T -> bool)
    requires forall x :: x in s ==> keep(x)
    ensures Filter(s, keep) == s
  {
    if s != [] {
      assert s[0] in s;
      FilterKeepsEvery(s[1..], keep);
      assert s == [s[0]] + s[1..];
    }
  }

  /** Filtering gives the empty list when no element passes. */
  lemma {:induction false} FilterNone<T(!new)>(s: seq<T>, keep: T -> bool)
    requires forall x :: x in s ==> !keep(x)
    ensures Filter(s, keep) == []
  {
    if s != [] {
      assert s[0] in s;
      FilterNone(s[1..], keep);
    }
  }

  /** Filtering by `p` and then by `q` is filtering by their conjunction `pq`. */
  lemma {:induction false} FilterTwice<T(!new)>(s: seq<T>, p: T -> bool, q: T -> bool, pq: T -> bool)
    requires forall x :: pq(x) == (p(x) && q(x))
    ensures Filter(Filter(s, p), q) == Filter(s, pq)
  {
    if s != [] {
      FilterTwice(s[1..], p, q, pq);
      if p(s[0]) {
        assert ([s[0]] + Filter(s[1..], p))[1..] == Filter(s[1..], p);
      }
    }
  }

  /** Filtering a concatenation filters each part. */
  lemma {:induction false} FilterAppend<T(!new)>(a: seq<T>, b: seq<T>, keep: T -> bool)
    ensures Filter(a + b, keep) == Filter(a, keep) + Filter(b, keep)
  {
    if a == [] {
      assert a + b == b;
    } else {
      assert (a + b)[0] == a[0];
      assert (a + b)[1..] == a[1..] + b;
      FilterAppend(a[1..], b, keep);
    }
  }

  /** `r` can be obtained from `s` by deleting elements; order is kept.
      Each element of `s` is either taken as the next element of `r` or skipped. */
  predicate IsSubsequence<T(==)>(r: seq<T>, s: seq<T>)
    decreases |s|
  {
    if s == [] then r == []
    else (r != [] && r[0] == s[0] && IsSubsequence(r[1..], s[1..])) || IsSubsequence(r, s[1..])
  }

  function Sum(s: seq<int>): int
  {
    if s == [] then 0 else s[0] + Sum(s[1..])
  }

  lemma SumAppend(a: seq<int>, b: seq<int>)
    ensures Sum(a + b) == Sum(a) + Sum(b)
  {
    if a != [] {
      assert (a + b)[0] == a[0];
      assert (a + b)[1..] == a[1..] + b;
      SumAppend(a[1..], b);
    } else {
      assert a + b == b;
    }
  }

  /** Is `t` a contiguous substring of `s`? (JavaScript `String.includes`). */
  predicate Contains(s: string, t: string)
  {
    exists i | 0 <= i <= |s| :: OccursAt(s, t, i)
  }

  predicate OccursAt(s: string, t: string, i: int)
  {
    0 <= i <= |s| - |t| && s[i..i + |t|] == t
  }

  predicate StartsWith<T(==)>(s: seq<T>, prefix: seq<T>)
  {
    |prefix| <= |s| && s[..|prefix|] == prefix
  }

  lemma ContainsEmpty(s: string)
    ensures Contains(s, "")
  {
    assert OccursAt(s, "", 0);
  }
}

=== FILE: venue_seed.dfy ===
/** The venue setup script's seat generation: how many seats each zone gets, the
    row-by-row enumeration of those seats, and the batches in which they are inserted. */
module VenueSeed {
  import opened Common
  import SeqUtil

  /** A zone row as returned by the zone insert. */
  datatype SeedZone = SeedZone(id: ZoneId, name: string)

  /** A seat row to insert (coordinates are left out). */
  datatype NewSeat = NewSeat(zoneId: ZoneId, rowNumber: int, seatNumber: int, status: SeatStatus)

  const SeatsPerRow: nat := 10
  const BatchSize: nat := 100

  /** Seats per zone: 20 for the VIP boxes, 200 for general access, 30 for each balcony zone. */
  function SeatsInZone(name: string): (n: nat)
    ensures SeqUtil.StartsWith(name, "VIP") ==> n == 20
    ensures !SeqUtil.StartsWith(name, "VIP") && name == "GENERAL ACCESS" ==> n == 200
    ensures !SeqUtil.StartsWith(name, "VIP") && name != "GENERAL ACCESS" ==> n == 30
  {
    if SeqUtil.StartsWith(name, "VIP") then 20
    else if name == "GENERAL ACCESS" then 200
    else 30
  }

  /** `Math.ceil(total / 10)`. */
  function RowCount(total: nat): (rows: nat)
    ensures (rows - 1) * SeatsPerRow < total <= rows * SeatsPerRow || (total == 0 && rows == 0)
  {
    (total + SeatsPerRow - 1) / SeatsPerRow
  }

  /** The seat at position `i` of a zone's list: rows of ten, numbered from 1. */
  function SeatAt(zoneId: ZoneId, i: nat): NewSeat
  {
    NewSeat(zoneId, i / SeatsPerRow + 1, i % SeatsPerRow + 1, Available)
  }

  /** The nested loop over rows 1..ceil(total/10) and seats 1..min(10, remaining). */
  method GenerateZone(zoneId: ZoneId, total: nat) returns (seats: seq<NewSeat>)
    ensures |seats| == total
    ensures forall i :: 0 <= i < |seats| ==> seats[i] == SeatAt(zoneId, i)
    ensures forall i :: 0 <= i < |seats| ==>
              seats[i].zoneId == zoneId && seats[i].status == Available &&
              1 <= seats[i].rowNumber <= RowCount(total) && 1 <= seats[i].seatNumber <= SeatsPerRow
  {
    seats := [];
    var row := 1;
    while row <= RowCount(total)
      invariant 1 <= row <= RowCount(total) + 1
      invariant |seats| == if row - 1 == RowCount(total) then total else (row - 1) * SeatsPerRow
      invariant forall i :: 0 <= i < |seats| ==> seats[i] == SeatAt(zoneId, i)
    {
      var inRow := if SeatsPerRow < total - (row - 1) * SeatsPerRow then SeatsPerRow else total - (row - 1) * SeatsPerRow;
      var seat := 1;
      while seat <= inRow
        invariant 1 <= seat <= inRow + 1
        invariant |seats| == (row - 1) * SeatsPerRow + (seat - 1)
        invariant forall i :: 0 <= i < |seats| ==> seats[i] == SeatAt(zoneId, i)
      {
        assert SeatAt(zoneId, |seats|) == NewSeat(zoneId, row, seat, Available);
        seats := seats + [NewSeat(zoneId, row, seat, Available)];
        seat := seat + 1;
      }
      row := row + 1;
    }
    forall i | 0 <= i < |seats|
      ensures 1 <= seats[i].rowNumber <= RowCount(total)
    {
      assert seats[i].rowNumber == i / SeatsPerRow + 1;
    }
  }

  /** Two positions of one zone never hold the same (row, seat) pair. */
  lemma SeatPositionsDistinct(zoneId: ZoneId, i: nat, j: nat)
    requires i != j
    ensures (SeatAt(zoneId, i).rowNumber, SeatAt(zoneId, i).seatNumber) !=
            (SeatAt(zoneId, j).rowNumber, SeatAt(zoneId, j).seatNumber)
  {
  }

  /** Every row but the last is full: the last row holds the remainder. */
  lemma RowsAreFullButTheLast(total: nat, i: nat)
    requires i < total
    requires i / SeatsPerRow + 1 < RowCount(total)
    ensures i / SeatsPerRow * SeatsPerRow + SeatsPerRow <= total
  {
  }

  function ZoneTotal(zones: seq<SeedZone>): nat
  {
    if zones == [] then 0 else SeatsInZone(zones[0].name) + ZoneTotal(zones[1..])
  }

  lemma {:induction false} ZoneTotalConcat(a: seq<SeedZone>, b: seq<SeedZone>)
    ensures ZoneTotal(a + b) == ZoneTotal(a) + ZoneTotal(b)
  {
    if a == [] {
      assert a + b == b;
    } else {
      assert (a + b)[1..] == a[1..] + b;
      ZoneTotalConcat(a[1..], b);
    }
  }

  /** Zones that all get `n` seats hold `n` seats apiece. */
  lemma {:induction false} UniformZoneTotal(zones: seq<SeedZone>, n: nat)
    requires forall i :: 0 <= i < |zones| ==> SeatsInZone(zones[i].name) == n
    ensures ZoneTotal(zones) == n * |zones|
  {
    if zones != [] {
      UniformZoneTotal(zones[1..], n);
    }
  }

  /** The zones the script inserts, in order. */
  const VipNames: seq<string> :=
    ["VIP 1", "VIP 2", "VIP 3", "VIP 4", "VIP 5", "VIP 6", "VIP 7",
     "VIP 8", "VIP 9", "VIP 10", "VIP 11", "VIP 12", "VIP 13", "VIP 14"]
  const BalconyNames: seq<string> :=
    ["201", "202", "203", "204", "205", "206", "207", "208", "209", "210", "211", "212", "213"]
  const VenueZoneNames: seq<string> := VipNames + BalconyNames + ["GENERAL ACCESS"]

  /** Each of the script's zone sizes is a whole number of rows, so no zone ends in a short row. */
  lemma ZoneRowsAreFull(name: string)
    ensures SeatsInZone(name) % SeatsPerRow == 0
    ensures RowCount(SeatsInZone(name)) * SeatsPerRow == SeatsInZone(name)
    ensures forall i :: 0 <= i < SeatsInZone(name) ==> i / SeatsPerRow * SeatsPerRow + SeatsPerRow <= SeatsInZone(name)
  {
    var n := SeatsInZone(name);
    forall i | 0 <= i < n
      ensures i / SeatsPerRow * SeatsPerRow + SeatsPerRow <= n
    {
      assert i / SeatsPerRow < n / SeatsPerRow;
    }
  }

  lemma VipZonesGetTwenty()
    ensures forall i :: 0 <= i < |VipNames| ==> SeatsInZone(VipNames[i]) == 20
  {
    forall i | 0 <= i < |VipNames|
      ensures SeatsInZone(VipNames[i]) == 20
    {
      assert VipNames[i][..3] == "VIP";
    }
  }

  lemma BalconyZonesGetThirty()
    ensures forall i :: 0 <= i < |BalconyNames| ==> SeatsInZone(BalconyNames[i]) == 30
  {
    forall i | 0 <= i < |BalconyNames|
      ensures SeatsInZone(BalconyNames[i]) == 30
    {
      assert BalconyNames[i][0] == '2';
    }
  }

  lemma GeneralAccessGetsTwoHundred()
    ensures SeatsInZone("GENERAL ACCESS") == 200
  {
    assert "GENERAL ACCESS"[0] == 'G';
  }

  lemma VenueNamesSplit()
    ensures |VenueZoneNames| == 28
    ensures forall i :: 0 <= i < 14 ==> VenueZoneNames[i] == VipNames[i]
    ensures forall i :: 14 <= i < 27 ==> VenueZoneNames[i] == BalconyNames[i - 14]
    ensures VenueZoneNames[27] == "GENERAL ACCESS"
  {
  }

  /** Fourteen zones of 20, thirteen of 30 and one of 200 make 870 seats. */
  lemma VenueTotalBySize(zones: seq<SeedZone>)
    requires |zones| == 28
    requires forall i :: 0 <= i < 14 ==> SeatsInZone(zones[i].name) == 20
    requires forall i :: 14 <= i < 27 ==> SeatsInZone(zones[i].name) == 30
    requires SeatsInZone(zones[27].name) == 200
    ensures ZoneTotal(zones[..14]) == 280
    ensures ZoneTotal(zones[14..27]) == 390
    ensures ZoneTotal(zones[27..]) == 200
    ensures ZoneTotal(zones) == 870
  {
    var vip, balcony, general := zones[..14], zones[14..27], zones[27..];
    assert forall i :: 0 <= i < |balcony| ==> balcony[i] == zones[i + 14];
    UniformZoneTotal(vip, 20);
    UniformZoneTotal(balcony, 30);
    UniformZoneTotal(general, 200);
    assert zones == vip + balcony + general;
    ZoneTotalConcat(vip, balcony);
    ZoneTotalConcat(vip + balcony, general);
  }

  /** The script's 28 zones get 870 seats: 280 in the fourteen VIP boxes, 390 in the
      thirteen balcony zones and 200 in general access. */
  lemma VenueHasEightHundredSeventySeats(zones: seq<SeedZone>)
    requires |zones| == |VenueZoneNames|
    requires forall i :: 0 <= i < |zones| ==> zones[i].name == VenueZoneNames[i]
    ensures ZoneTotal(zones[..14]) == 280
    ensures ZoneTotal(zones[14..27]) == 390
    ensures ZoneTotal(zones[27..]) == 200
    ensures ZoneTotal(zones) == 870
  {
    VenueNamesSplit();
    VipZonesGetTwenty();
    BalconyZonesGetThirty();
    GeneralAccessGetsTwoHundred();
    forall i | 0 <= i < 14
      ensures SeatsInZone(zones[i].name) == 20
    {
      assert zones[i].name == VipNames[i];
    }
    forall i | 14 <= i < 27
      ensures SeatsInZone(zones[i].name) == 30
    {
      assert zones[i].name == BalconyNames[i - 14];
    }
    VenueTotalBySize(zones);
  }

  /** The seats of one zone, position by position. */
  function ZoneSeats(z: SeedZone): (seats: seq<NewSeat>)
    ensures |seats| == SeatsInZone(z.name)
    ensures forall s :: s in seats ==> s.zoneId == z.id && s.status == Available
  {
    seq(SeatsInZone(z.name), i requires 0 <= i < SeatsInZone(z.name) => SeatAt(z.id, i))
  }

  /** The venue's seats: every zone's seats in turn, in the order the zones were inserted. */
  function VenueSeats(zones: seq<SeedZone>): (seats: seq<NewSeat>)
    ensures |seats| == ZoneTotal(zones)
  {
    if zones == [] then [] else ZoneSeats(zones[0]) + VenueSeats(zones[1..])
  }

  lemma {:induction false} VenueSeatsAppend(zones: seq<SeedZone>, z: SeedZone)
    ensures VenueSeats(zones + [z]) == VenueSeats(zones) + ZoneSeats(z)
  {
    if zones == [] {
      assert [z][1..] == [];
      assert ZoneSeats(z) + [] == ZoneSeats(z);
    } else {
      assert (zones + [z])[1..] == zones[1..] + [z];
      VenueSeatsAppend(zones[1..], z);
    }
  }

  /** Every seat of the venue list belongs to one of the zones. */
  lemma {:induction false} VenueSeatHasZone(zones: seq<SeedZone>, s: NewSeat)
    requires s in VenueSeats(zones)
    ensures exists i :: 0 <= i < |zones| && zones[i].id == s.zoneId
  {
    if s in ZoneSeats(zones[0]) {
      assert zones[0].id == s.zoneId;
    } else {
      VenueSeatHasZone(zones[1..], s);
      var i :| 0 <= i < |zones[1..]| && zones[1..][i].id == s.zoneId;
      assert zones[i + 1].id == s.zoneId;
    }
  }

  function OfZone(id: ZoneId): NewSeat -> bool
  {
    (s: NewSeat) => s.zoneId == id
  }

  /** With distinct zone ids, picking one zone's seats out of the venue list gives
      exactly that zone's seats, in row-then-seat order. */
  lemma {:induction false} VenueSeatsOfZone(zones: seq<SeedZone>, k: nat)
    requires k < |zones|
    requires forall i, j :: 0 <= i < j < |zones| ==> zones[i].id != zones[j].id
    ensures SeqUtil.Filter(VenueSeats(zones), OfZone(zones[k].id)) == ZoneSeats(zones[k])
  {
    var id := zones[k].id;
    var head := ZoneSeats(zones[0]);
    var rest := VenueSeats(zones[1..]);
    SeqUtil.FilterAppend(head, rest, OfZone(id));
    if k == 0 {
      SeqUtil.FilterKeepsEvery(head, OfZone(id));
      forall s | s in rest
        ensures !OfZone(id)(s)
      {
        VenueSeatHasZone(zones[1..], s);
        var i :| 0 <= i < |zones[1..]| && zones[1..][i].id == s.zoneId;
        assert zones[i + 1].id == s.zoneId;
      }
      SeqUtil.FilterNone(rest, OfZone(id));
      assert head + [] == head;
    } else {
      assert zones[0].id != id;
      SeqUtil.FilterNone(head, OfZone(id));
      VenueSeatsOfZone(zones[1..], k - 1);
      assert [] + ZoneSeats(zones[k]) == ZoneSeats(zones[k]);
    }
  }

  /** The seats of all inserted zones, zone after zone. */
  method GenerateVenue(zones: seq<SeedZone>) returns (seats: seq<NewSeat>)
    ensures seats == VenueSeats(zones)
    ensures |seats| == ZoneTotal(zones)
    ensures forall s :: s in seats ==> s.status == Available && exists z :: z in zones && z.id == s.zoneId
  {
    seats := [];
    var k := 0;
    while k < |zones|
      invariant 0 <= k <= |zones|
      invariant seats == VenueSeats(zones[..k])
      invariant forall s :: s in seats ==> s.status == Available && exists z :: z in zones && z.id == s.zoneId
    {
      var zoneSeats := GenerateZone(zones[k].id, SeatsInZone(zones[k].name));
      assert zoneSeats == ZoneSeats(zones[k]);
      assert zones[..k + 1] == zones[..k] + [zones[k]];
      VenueSeatsAppend(zones[..k], zones[k]);
      forall s | s in zoneSeats
        ensures s.zoneId == zones[k].id
      {
        var i :| 0 <= i < |zoneSeats| && zoneSeats[i] == s;
      }
      seats := seats + zoneSeats;
      k := k + 1;
    }
    assert zones[..k] == zones;
  }

  // ---------------------------------------------------------------------------
  // Batches

  function Min(a: nat, b: nat): nat
  {
    if a < b then a else b
  }

  /** `seats.slice(i, i + 100)` for i = 0, 100, 200, ... */
  function Batches(seats: seq<NewSeat>): (bs: seq<seq<NewSeat>>)
    ensures forall i :: 0 <= i < |bs| ==> 0 < |bs[i]| <= BatchSize
    ensures forall i :: 0 <= i < |bs| - 1 ==> |bs[i]| == BatchSize
    ensures |bs| == (|seats| + BatchSize - 1) / BatchSize
    decreases |seats|
  {
    if seats == [] then []
    else
      var n := Min(BatchSize, |seats|);
      [seats[..n]] + Batches(seats[n..])
  }

  function Flatten(bs: seq<seq<NewSeat>>): seq<NewSeat>
  {
    if bs == [] then [] else bs[0] + Flatten(bs[1..])
  }

  /** The batches, put back together, are the full seat list. */
  lemma {:induction false} BatchesCoverAll(seats: seq<NewSeat>)
    ensures Flatten(Batches(seats)) == seats
    decreases |seats|
  {
    if seats != [] {
      var n := Min(BatchSize, |seats|);
      BatchesCoverAll(seats[n..]);
      assert ([seats[..n]] + Batches(seats[n..]))[1..] == Batches(seats[n..]);
      assert seats == seats[..n] + seats[n..];
    }
  }

  /** The insert loop stops at the first failing batch: the store keeps the batches before it. */
  function Inserted(bs: seq<seq<NewSeat>>, firstFailure: Option<nat>): (stored: seq<NewSeat>)
    ensures firstFailure.None? ==> stored == Flatten(bs)
    ensures SeqUtil.StartsWith(Flatten(bs), stored)
    ensures firstFailure == Some(0) ==> stored == []
  {
    match firstFailure
    case None => Flatten(bs)
    case Some(k) =>
      FlattenPrefix(bs, Min(k, |bs|));
      Flatten(bs[..Min(k, |bs|)])
  }

  lemma {:induction false} FlattenPrefix(bs: seq<seq<NewSeat>>, k: nat)
    requires k <= |bs|
    ensures SeqUtil.StartsWith(Flatten(bs), Flatten(bs[..k]))
  {
    if k > 0 {
      FlattenPrefix(bs[1..], k - 1);
      assert bs[..k][1..] == bs[1..][..k - 1];
    }
  }

  /** The first `k` batches hold the first `100 k` seats, or all of them. */
  lemma {:induction false} BatchPrefixLength(seats: seq<NewSeat>, k: nat)
    ensures |Flatten(Batches(seats)[..Min(k, |Batches(seats)|)])| == Min(k * BatchSize, |seats|)
    decreases |seats|
  {
    var bs := Batches(seats);
    if seats != [] && k > 0 {
      var n := Min(BatchSize, |seats|);
      BatchPrefixLength(seats[n..], k - 1);
      assert bs[..Min(k, |bs|)][1..] == Batches(seats[n..])[..Min(k - 1, |Batches(seats[n..])|)];
    } else if seats == [] {
      assert bs[..Min(k, |bs|)] == [];
    } else {
      assert bs[..0] == [];
    }
  }

  /** What reaches the store is always a prefix of the generated list, batch-aligned. */
  lemma InsertedIsPrefix(seats: seq<NewSeat>, firstFailure: Option<nat>)
    ensures SeqUtil.StartsWith(seats, Inserted(Batches(seats), firstFailure))
    ensures firstFailure.Some? ==>
              |Inserted(Batches(seats), firstFailure)| == Min(firstFailure.value * BatchSize, |seats|)
  {
    BatchesCoverAll(seats);
    var bs := Batches(seats);
    if firstFailure.Some? {
      FlattenPrefix(bs, Min(firstFailure.value, |bs|));
      BatchPrefixLength(seats, firstFailure.value);
    } else {
      assert seats[..|seats|] == seats;
    }
  }
}

=== FILE: zone_seed.dfy ===
/** The one-zone seat script: it finds the target zone by name, deletes that zone's
    seats, inserts one prepared seat per data entry and counts the zone's seats back. */
module ZoneSeed {
  import opened Common
  import SeqUtil
  import SeatLayout

  const TargetZoneName: string := "201"

  /** One entry of the seat data; the coordinates are left out. */
  datatype SeatEntry = SeatEntry(rowName: SeatLayout.JsString, seatNumber: int)

  /** A seat row as inserted: an empty row name gives no row number (null in the store). */
  datatype PreparedSeat = PreparedSeat(zoneId: ZoneId, rowNumber: Option<int>, seatNumber: int, status: SeatStatus)

  /** How the run ends: nothing to do, a failed step, or the final count against the expected one. */
  datatype Outcome =
    | NoData
    | ZoneMissing
    | DeleteFailed
    | InsertFailed
    | CountFailed
    | Checked(count: nat, expected: nat)

  /** The seats table after the run and the number of store calls made. */
  datatype Run = Run(outcome: Outcome, table: seq<PreparedSeat>, storeCalls: nat)

  /** The store faults the run can meet, one per step after the zone lookup. */
  datatype Faults = Faults(deleteFails: bool, insertFails: bool, countFails: bool)

  function HasName(name: string): Zone -> bool
  {
    (z: Zone) => z.name == name
  }

  function InZone(zoneId: ZoneId): PreparedSeat -> bool
  {
    (s: PreparedSeat) => s.zoneId == zoneId
  }

  function OutsideZone(zoneId: ZoneId): PreparedSeat -> bool
  {
    (s: PreparedSeat) => s.zoneId != zoneId
  }

  /** `.eq('name', ...).single()`: the zone's id when exactly one zone has that name. */
  function LookUpZone(zones: seq<Zone>, name: string): (id: Option<ZoneId>)
    ensures id.Some? <==> |SeqUtil.Filter(zones, HasName(name))| == 1
    ensures id.Some? ==> exists z :: z in zones && z.name == name && z.id == id.value
  {
    var matches := SeqUtil.Filter(zones, HasName(name));
    if |matches| == 1 then
      assert matches[0] in matches;
      Some(matches[0].id)
    else None
  }

  /** The row prepared for one entry. */
  function Prepare(zoneId: ZoneId, e: SeatEntry): (s: PreparedSeat)
    ensures s.zoneId == zoneId && s.status == Available && s.seatNumber == e.seatNumber
    ensures s.rowNumber == SeatLayout.RowNumberOf(e.rowName)
  {
    PreparedSeat(zoneId, SeatLayout.RowNumberOf(e.rowName), e.seatNumber, Available)
  }

  /** `seatData.map(...)`: one prepared row per entry, in order. */
  function PrepareAll(zoneId: ZoneId, data: seq<SeatEntry>): (rows: seq<PreparedSeat>)
    ensures |rows| == |data|
    ensures forall i :: 0 <= i < |data| ==> rows[i] == Prepare(zoneId, data[i])
  {
    if data == [] then [] else [Prepare(zoneId, data[0])] + PrepareAll(zoneId, data[1..])
  }

  /** The whole script against a zones list and a seats table. */
  function Populate(data: seq<SeatEntry>, zones: seq<Zone>, table: seq<PreparedSeat>, faults: Faults): (r: Run)
    ensures data == [] ==> r == Run(NoData, table, 0)
    ensures r.outcome == ZoneMissing <==> data != [] && LookUpZone(zones, TargetZoneName).None?
    ensures r.outcome in {NoData, ZoneMissing, DeleteFailed} ==> r.table == table
    ensures r.outcome == ZoneMissing ==> r.storeCalls == 1
    ensures r.outcome == DeleteFailed ==> r.storeCalls == 2
    ensures r.outcome == InsertFailed ==> r.storeCalls == 3
    ensures r.outcome == CountFailed || r.outcome.Checked? ==> r.storeCalls == 4
  {
    if data == [] then Run(NoData, table, 0)
    else
      match LookUpZone(zones, TargetZoneName)
      case None => Run(ZoneMissing, table, 1)
      case Some(zoneId) =>
        if faults.deleteFails then Run(DeleteFailed, table, 2)
        else
          var kept := SeqUtil.Filter(table, OutsideZone(zoneId));
          if faults.insertFails then Run(InsertFailed, kept, 3)
          else
            var prepared := PrepareAll(zoneId, data);
            var after := kept + prepared;
            if faults.countFails then Run(CountFailed, after, 4)
            else Run(Checked(|SeqUtil.Filter(after, InZone(zoneId))|, |prepared|), after, 4)
  }

  /** The script's final check passes. */
  predicate Passed(o: Outcome)
  {
    o.Checked? && o.count == o.expected
  }

  /** After the delete and the insert, the zone holds exactly the prepared rows. */
  lemma ZoneHoldsPrepared(table: seq<PreparedSeat>, zoneId: ZoneId, data: seq<SeatEntry>)
    ensures SeqUtil.Filter(SeqUtil.Filter(table, OutsideZone(zoneId)) + PrepareAll(zoneId, data), InZone(zoneId))
            == PrepareAll(zoneId, data)
  {
    var kept := SeqUtil.Filter(table, OutsideZone(zoneId));
    var prepared := PrepareAll(zoneId, data);
    SeqUtil.FilterAppend(kept, prepared, InZone(zoneId));
    SeqUtil.FilterNone(kept, InZone(zoneId));
    forall s | s in prepared
      ensures InZone(zoneId)(s)
    {
      var i :| 0 <= i < |prepared| && prepared[i] == s;
    }
    SeqUtil.FilterKeepsEvery(prepared, InZone(zoneId));
  }

  /** When every store call succeeds, the count read back is the number of entries,
      and the zone's seats are exactly the prepared rows. */
  lemma SuccessfulRunPasses(data: seq<SeatEntry>, zones: seq<Zone>, table: seq<PreparedSeat>)
    requires data != [] && LookUpZone(zones, TargetZoneName).Some?
    ensures Passed(Populate(data, zones, table, Faults(false, false, false)).outcome)
    ensures Populate(data, zones, table, Faults(false, false, false)).outcome.expected == |data|
    ensures var zoneId := LookUpZone(zones, TargetZoneName).value;
            SeqUtil.Filter(Populate(data, zones, table, Faults(false, false, false)).table, InZone(zoneId))
            == PrepareAll(zoneId, data)
  {
    ZoneHoldsPrepared(table, LookUpZone(zones, TargetZoneName).value, data);
  }

  /** Seats of every other zone survive the run untouched, whatever fails. */
  lemma OtherZonesUntouched(data: seq<SeatEntry>, zones: seq<Zone>, table: seq<PreparedSeat>, faults: Faults)
    requires data != [] && LookUpZone(zones, TargetZoneName).Some?
    ensures var zoneId := LookUpZone(zones, TargetZoneName).value;
            SeqUtil.Filter(Populate(data, zones, table, faults).table, OutsideZone(zoneId))
            == SeqUtil.Filter(table, OutsideZone(zoneId))
  {
    var zoneId := LookUpZone(zones, TargetZoneName).value;
    var kept := SeqUtil.Filter(table, OutsideZone(zoneId));
    var prepared := PrepareAll(zoneId, data);
    SeqUtil.FilterTwice(table, OutsideZone(zoneId), OutsideZone(zoneId), OutsideZone(zoneId));
    if !faults.deleteFails && !faults.insertFails {
      SeqUtil.FilterAppend(kept, prepared, OutsideZone(zoneId));
      forall s | s in prepared
        ensures !OutsideZone(zoneId)(s)
      {
        var i :| 0 <= i < |prepared| && prepared[i] == s;
      }
      SeqUtil.FilterNone(prepared, OutsideZone(zoneId));
      assert kept + [] == kept;
    }
  }

  /** Running the script a second time leaves the table as the first successful run left it:
      the delete step removes what the first run inserted. */
  lemma RerunIsIdempotent(data: seq<SeatEntry>, zones: seq<Zone>, table: seq<PreparedSeat>)
    requires data != [] && LookUpZone(zones, TargetZoneName).Some?
    ensures var once := Populate(data, zones, table, Faults(false, false, false)).table;
            Populate(data, zones, once, Faults(false, false, false)).table == once
  {
    var zoneId := LookUpZone(zones, TargetZoneName).value;
    var once := Populate(data, zones, table, Faults(false, false, false)).table;
    OtherZonesUntouched(data, zones, table, Faults(false, false, false));
    assert SeqUtil.Filter(once, OutsideZone(zoneId)) == SeqUtil.Filter(table, OutsideZone(zoneId));
  }

  /** A row name's first letter fixes the prepared row number: 'A' is 1 and 'K' is 11. */
  lemma PreparedRowsOfTheVenue(zoneId: ZoneId, n: int)
    ensures Prepare(zoneId, SeatEntry([65], n)).rowNumber == Some(1)
    ensures Prepare(zoneId, SeatEntry([75], n)).rowNumber == Some(11)
    ensures Prepare(zoneId, SeatEntry([], n)).rowNumber == None
  {
  }
}
